=== FILE: README.md ===
# A verified model of a Python Lox front end and evaluator

This project models the core of a small interpreter for the expression
subset of the Lox language, written in Python. It has six parts:

- **Scanner** (`Scanner.py`). A cursor over the source text that appends tokens to a list and ends the list with one end-of-input (EOF) token.
- **Parser** (`Parser.py`). A recursive-descent parser for the precedence levels equality, comparison, term, factor, unary and primary.
- **Evaluator** (`Interpreter.py`). It evaluates a tree to a value or a runtime error, and its statement loop stops at the first runtime error.
- **Environment** (`Environment.py`). A chain of variable scopes with `define`, `get` and `assign`.
- **Error formatting** (`Error.py`). It builds the `[line N] Error <where>: <message>` report lines.
- **AST printer** (`AstPrinter.py`). A fully parenthesised pretty-printer.

Each part takes its source's form:

- **Scanner and parser.** Each is a class whose methods move a cursor and append to the token list and the console. Each method is proved against a pure specification function: `Step` and `Scan` for the scanner, the grammar functions `PExpression` … `PPrimary` for the parser.
- **Evaluator.** Its pure side (`Evaluate`) is a function. `interpret` is a method with a loop, proved against the function `Interpretation`.
- **Environment.** A class with a `values` map and an `enclosing` reference. Its methods are proved against functions over the chain of scopes, innermost first.
- **Error formatting and the printer.** Both are pure functions.

Exceptions become result values:

- A `LoxRuntimeError` is `RuntimeFault`.
- The bare `Exception` the evaluator raises for an unknown operator is `InternalFault`, which `interpret` does not catch.
- A `ParseError` is the `PErr` case of the grammar functions.
- Console output is a sequence of lines: the scanner's and the parser's `reported` fields, and the interpreter's `console`.

### Defects and quirks

Two statements of the scanner cannot run as written. The model gives each its evident meaning:

- The newline branch increments an unbound local (`line += 1`, `Scanner.py:100`). It is modelled as incrementing the scanner's line counter.
- The lexeme slices are written as tuple subscripts (`source[a, b]`, `Scanner.py:147,160,172`). They are modelled as the slice `source[a:b]`.

The syntax-tree classes go by two sets of names, and they cannot both resolve against one `AST/Expr.py`:

- The parser and the printer build and visit `Binary`, `Unary`, `Literal` and `Grouping` (`Parser.py:130-217`, `AstPrinter.py:13-36`).
- The interpreter names `LiteralExpr`, `GroupingExpr`, `UnaryExpr` and `BinaryExpr` (`Interpreter.py:24-65`). Its `is_truthy` tests `isinstance(expr, LiteralExpr)` (`Interpreter.py:43`). `GenerateAST.py` names each generated class `<Name><Base>`, as the generated `AST/Stmt.py` shows with `ExpressionStmt` and `PrintStmt`.
- Against a generated `Expr.py`, `primary()` raises NameError the first time it builds a node (`Parser.py:205-217`). Against one with the bare names, `is_truthy` raises NameError instead.
- The model gives both sides the one datatype `Syntax.Expr`, whose variants are the four node kinds.

The following behaviours are well defined, so they are kept exactly as written and proved:

- The string branch's guard repeats the newline test (`Scanner.py:101`). A `"` is therefore an unexpected character, and `string()` is never reached from `scan_token`.
- `peek_next`'s test is inverted (`Scanner.py:163-166`). While a character is under the cursor it answers `""`. At the end of input it indexes past the string. So a number never takes a fractional part.
- `equality` lists `BANG_EQUAL` twice (`Parser.py:127`). `==` is never consumed by the parser.
- `is_truthy` tests for a Literal node (`Interpreter.py:42-49`). On an evaluated value it is always true, so `!` always yields false.
- `is_equal` is Python's `==`. It is modelled with its one cross-type case: `True == 1.0` and `False == 0.0` both hold. It is still an equivalence relation, as `IsEqualEquivalence` shows.

## Model

| member | source | states |
|---|---|---|
| Scanning.CommentEnd | Scanner.py:92-94 | the comment loop stops at the first newline after its start, or at the end of input |
| Scanning.DigitEnd | Scanner.py:150-151 | the digit loop stops at the end of the maximal run of digits |
| Scanning.IdentEnd | Scanner.py:169-170 | the identifier loop stops at the end of the maximal run of `[A-Za-z0-9_]` |
| Scanning.QuoteEnd | Scanner.py:136-139 | the string loop stops at the first `"`, or at the end of input |
| Scanning.Step | Scanner.py:56-108 | one `scan_token` consumes at least one character; it emits at most one token, never EOF, whose lexeme is the consumed text and whose line is the current line; it reports at most one error; the line grows by one exactly on a newline |
| Scanning.Scan | Scanner.py:45-51 | the token list ends with exactly one EOF token, with lexeme `""`, no literal, and the line number the start line plus the newlines scanned; no earlier token is EOF |
| Scanning.StepCountsLines | Scanner.py:56-108 | each `scan_token` moves the line counter by exactly the number of newlines it consumed |
| Scanning.Scanner.constructor | Scanner.py:31-43 | a new scanner keeps the given token list, with cursor 0, start 0, line 1 and nothing reported |
| Scanning.Scanner.Advance | Scanner.py:110-112 | consumes exactly one character and returns it |
| Scanning.Scanner.AddToken | Scanner.py:114-117 | appends one token with lexeme `source[start:current]` on the current line, and leaves the other tokens unchanged |
| Scanning.Scanner.Match | Scanner.py:119-127 | advances by one exactly when the next character exists and is the expected one, and never passes the end |
| Scanning.Scanner.Peek | Scanner.py:129-133 | gives `""` exactly at the end of input, and otherwise the character under the cursor |
| Scanning.Scanner.PeekNext | Scanner.py:162-166 | gives `""` exactly when a character is under the cursor, and fails (IndexError) at the end of input |
| Scanning.Scanner.AtEnd | Scanner.py:53-54 | in a valid state, the scanner is at the end exactly when the cursor sits on the end of the source |
| Scanning.KeywordsAreWords | Scanner.py:6-23 | every reserved word is identifier-shaped, and none maps to IDENTIFIER, STRING, NUMBER or EOF |
| Scanning.KeywordOr | Scanner.py:172-176 | an identifier run is IDENTIFIER exactly when it is no reserved word, and never gets a literal or EOF kind |
| Scanning.LastStart | Scanner.py:45-49 | the start of the last lexeme of a scan lies inside the source, at or after where the scan began |
| Scanning.Scanner.ScanString | Scanner.py:135-147 | an unterminated string reports "Unterminated string." and emits nothing; a terminated one emits a STRING token whose literal is the text between the quotes; either way the line grows by the newlines inside |
| Scanning.Scanner.ScanNumber | Scanner.py:149-160 | emits one NUMBER token for the maximal digit run, with its decimal value as the literal; the fractional branch is dead |
| Scanning.Scanner.ScanIdentifier | Scanner.py:168-177 | emits one token for the maximal identifier run: the keyword kind if the run is reserved, IDENTIFIER otherwise |
| Scanning.Scanner.SkipComment | Scanner.py:93-94 | consumes up to, but not including, the next newline or the end of input |
| Scanning.Scanner.ScanToken | Scanner.py:56-108 | moves the cursor, the line, the tokens and the reports exactly as `Step` says |
| Scanning.Scanner.ScanTokens | Scanner.py:45-51 | the scanner keeps the tokens it started with, then appends the tokens and reports of `Scan`, ending with exactly one EOF token; the returned list is the token list; the cursor ends at the end of the source, the line has grown by the newlines scanned, and `start` is the start of the last lexeme (unchanged if there was none) |
| ScanningProperties.SingleCharacterToken | Scanner.py:59-78 | each of `( ) { } , . - + ; *` gives exactly one token of its kind with a one-character lexeme |
| ScanningProperties.EqualSuffixedOperator | Scanner.py:79-90 | `!`, `=`, `<` and `>` give the two-character `=` kind if and only if the next character is `=`, and otherwise the one-character kind |
| ScanningProperties.CommentSkipped | Scanner.py:91-94 | `//` emits nothing and consumes up to, but not including, the next newline or the end of input |
| ScanningProperties.LoneSlash | Scanner.py:95-96 | a `/` not followed by `/` is one SLASH token |
| ScanningProperties.WhitespaceSkipped | Scanner.py:97-100 | space, `\r`, `\t` and newline emit nothing; only a newline moves the line counter |
| ScanningProperties.IdentifierToken | Scanner.py:168-177 | an identifier is the maximal `[A-Za-z0-9_]` run after a letter or `_`; a reserved word gets its keyword kind, anything else is IDENTIFIER |
| ScanningProperties.NumberToken | Scanner.py:149-160 | a NUMBER lexeme is the maximal digit run, and its literal is the run's decimal value |
| ScanningProperties.NoFractionalNumbers | Scanner.py:153-166 | in `12.5` the NUMBER token stops before the dot, and the dot becomes a DOT token of its own |
| ScanningProperties.UnexpectedCharacter | Scanner.py:107-108 | any other character reports "Unexpected character." on the current line, emits no token, and scanning goes on after it |
| ScanningProperties.QuoteIsUnexpected | Scanner.py:99-102 | `"` never starts a string: it reports `[line N] Error : Unexpected character.` |
| ScanningProperties.ReservedWordToken | Scanner.py:168-177 | a reserved word not followed by an identifier character is one token of its keyword kind |
| ScanningProperties.StepLiteralsTyped | Scanner.py:56-108 | no step makes a STRING token, and every NUMBER token carries a number |
| Errors.Report | Error.py:5-6 | the line number reads back from the `[line N]` tag of the report, and the report ends with `] Error <where>: <message>`, and its length leaves room for nothing else, so the line is exactly `[line N] Error <where>: <message>` |
| Errors.ErrorText | Error.py:10-11 | the line reads back from the tag, the report ends with `] Error : <message>`, and nothing else lies between |
| Errors.ParseErrorText | Error.py:14-18 | the token's line reads back from the tag; the report ends with ` at end: <message>` for the EOF token and ` at '<lexeme>': <message>` for any other, with nothing else between tag and suffix |
| RuntimeErrors.RuntimeErrorText | RuntimeError.py:10-11 | the error token's line reads back from the tag, and the line ends with `] <message>`, with nothing else between |
| Parsing.LiteralValue | Parser.py:211-212 | a token literal becomes a value of its own sort with its payload, never a Boolean, so different literals give different values |
| Parsing.LiteralOf | Parser.py:204-212 | `primary` builds a Literal node exactly for false, true, nil, NUMBER and STRING tokens |
| Parsing.PExpression | Parser.py:81-87 | `expression` consumes at least one token and never the EOF token, or fails at a position inside the list |
| Parsing.POperand | Parser.py:125-182 | each level's operand is the next tighter level, and `unary` below `factor`; it makes progress |
| Parsing.PBinary | Parser.py:119-182 | the four binary levels make progress, and a parse error stays inside the list |
| Parsing.PTail | Parser.py:127-182 | each level's operator loop ends at or after where it starts, before the EOF token |
| Parsing.PUnary | Parser.py:184-196 | `unary` makes progress |
| Parsing.PPrimary | Parser.py:198-219 | `primary` makes progress |
| Parsing.SyncFrom | Parser.py:102-117 | the recovery scan stops at the first EOF token or statement keyword (class, fun, var, for, if, while, print, return), and skips only other tokens |
| Parsing.Parser.constructor | Parser.py:13-19 | a parser starts at token 0 of a non-empty list that ends with EOF |
| Parsing.Parser.Peek | Parser.py:65-71 | gives the current token; a token other than EOF is never the last one |
| Parsing.Parser.Previous | Parser.py:73-79 | gives the token before the cursor; at position 0, Python's index -1 gives the last token, which is EOF |
| Parsing.Parser.AtEnd | Parser.py:57-63 | the cursor on the last token is at the end |
| Parsing.Parser.Check | Parser.py:34-44 | holds exactly when `match` with that one kind would succeed here; it never holds for EOF |
| Parsing.Parser.Advance | Parser.py:46-55 | moves by one unless the cursor is at EOF, never past it, and returns the previous token |
| Parsing.Parser.Match | Parser.py:21-32 | advances by exactly one if and only if the current token is not EOF and has one of the kinds; otherwise the cursor is unchanged |
| Parsing.Parser.Error | Parser.py:89-92 | reports the parse-error line for the token |
| Parsing.Parser.Consume | Parser.py:221-234 | on a matching kind, returns the token and advances; otherwise it reports at the current token and fails without advancing |
| Parsing.Parser.Synchronise | Parser.py:94-117 | advances at least once unless already at EOF, then stops exactly at the first EOF token or statement keyword |
| Parsing.Parser.Expression | Parser.py:81-87 | builds the tree of `PExpression` and ends where it ends, or reports its error and stops at the error token |
| Parsing.Parser.Equality | Parser.py:119-132 | agrees with the equality level (BANG_EQUAL only), in tree, cursor and reports |
| Parsing.Parser.Comparison | Parser.py:134-152 | agrees with the comparison level, in tree, cursor and reports |
| Parsing.Parser.Term | Parser.py:154-167 | agrees with the term level, in tree, cursor and reports |
| Parsing.Parser.Factor | Parser.py:169-182 | agrees with the factor level, in tree, cursor and reports |
| Parsing.Parser.Unary | Parser.py:184-196 | agrees with `PUnary`, in tree, cursor and reports |
| Parsing.Parser.Primary | Parser.py:198-219 | agrees with `PPrimary`, in tree, cursor and reports |
| Parsing.Parser.GroupingOrError | Parser.py:214-219 | the parenthesised case and the "Expected expression." case of `primary` agree with `PPrimary` |
| Parsing.Parser.Parse | Parser.py:236-245 | reports an error if and only if `expression` raises; with no error, gives its tree; with one, prints one parse-error line and gives no tree |
| ParsingProperties.ExpressionShape | Parser.py:81-182 | every tree `expression` builds respects precedence and left associativity; it stops at a token that is no operator the grammar takes; and any error is "Expected expression." or "Expected ')' after expression" at the right kind of token |
| ParsingProperties.OperandShape | Parser.py:125-182 | an operand is a tree of a strictly tighter level, and it stops before any operator of that level |
| ParsingProperties.BinaryShape | Parser.py:119-182 | a binary level builds trees of its own level and stops before its operators and tighter ones |
| ParsingProperties.TailShape | Parser.py:127-182 | each level's loop nests the trees it builds to the left |
| ParsingProperties.UnaryShape | Parser.py:184-196 | `unary` builds prefix chains over a primary |
| ParsingProperties.PrimaryShape | Parser.py:198-219 | `primary` builds a literal or a grouping, and otherwise raises "Expected expression." or the missing-`)` error |
| ParsingProperties.CannotStartExpression | Parser.py:219 | a token that cannot start an expression (an IDENTIFIER, say) raises "Expected expression." at that very token |
| ParsingProperties.EqualEqualStops | Parser.py:125-132 | an operand followed by `==` is the whole expression: `==` is never consumed |
| ParsingProperties.NoEqualEqualTree | Parser.py:127 | no tree the parser builds holds `==` |
| ParsingProperties.LiteralPrimary | Parser.py:204-212 | a literal token is taken alone as a Literal node |
| ParsingProperties.LeftNested | Parser.py:154-167 | `a - b - c` parses as `(a - b) - c` |
| ParsingProperties.FactorBindsTighter | Parser.py:154-182 | `a + b * c` parses as `a + (b * c)` |
| ParsingProperties.PrefixNestsRight | Parser.py:184-196 | `- - a` parses as `-(-a)` |
| ParsingProperties.ExpressionYield | Parser.py:81-87 | with typed literals, the tree `expression` builds lists exactly the kinds of the tokens it consumed, in order |
| ParsingProperties.OperandYield | Parser.py:125-182 | the same for each level's operand |
| ParsingProperties.BinaryYield | Parser.py:119-182 | the same for each binary level |
| ParsingProperties.TailYield | Parser.py:127-182 | each level's loop keeps the tree's kinds equal to the tokens consumed since the level began |
| ParsingProperties.UnaryYield | Parser.py:184-196 | the same for `unary` |
| ParsingProperties.PrimaryYield | Parser.py:198-219 | the same for `primary`: a literal's own kind, or the parentheses around the inner expression |
| Interpreting.IsTruthy | Interpreter.py:41-49 | false only for a Literal node that holds None or False; every evaluated value is truthy |
| Interpreting.IsEqual | Interpreter.py:118-120 | equal values are equal; numbers, booleans, strings and None compare exactly; a bool equals a number exactly when the number is 1.0 for True or 0.0 for False, as Python's `==` does |
| Interpreting.EvalUnary | Interpreter.py:30-40 | only `-` and `!` are known, any other operator raises the bare exception; `-` gives the additive inverse of a number and otherwise raises "Operand must be a number." at the operator; `!` always gives false |
| Interpreting.EvalBinary | Interpreter.py:65-116 | the bare exception is raised exactly for an operator the visitor does not list; a runtime error is raised at the operator, with the message for bad `+` operands, for non-number operands, or for a zero divisor; a `+` result comes from two numbers or two strings, and an arithmetic or comparison result from two numbers |
| Interpreting.Evaluate | Interpreter.py:21-116 | a runtime error is raised at an operator token of the tree, and carries one of the four messages |
| Interpreting.BangIsAlwaysFalse | Interpreter.py:36-37 | `!` on any evaluated value yields false |
| Interpreting.NegationCases | Interpreter.py:30-35 | unary `-` negates a number, and on anything else raises "Operand must be a number." at the operator |
| Interpreting.DoubleNegation | Interpreter.py:33-35 | negating a number twice gives it back |
| Interpreting.LeftBeforeRight | Interpreter.py:65-67 | the left operand's error wins, then the right operand's; only then does the operator act |
| Interpreting.PlusCases | Interpreter.py:69-76 | `+` adds two numbers and concatenates two strings; any other pair raises "Operands must be two numbers or two strings." |
| Interpreting.PlusThenMinus | Interpreter.py:69-80 | subtracting what `+` added gives back the left number |
| Interpreting.ConcatenationParts | Interpreter.py:73-74 | a string sum is the left string followed by the right one |
| Interpreting.NumericOperands | Interpreter.py:58-108 | `-`, `*`, `/` and the comparisons raise "Operands must be a numbers." unless both operands are numbers; comparisons give booleans, arithmetic gives numbers, and `*` of two numbers is their product |
| Interpreting.ComparisonMeaning | Interpreter.py:94-108 | the comparisons order numbers as the reals do |
| Interpreting.Division | Interpreter.py:86-92 | `/` raises "Divide by zero error." for divisor 0; otherwise the quotient times the divisor is the dividend |
| Interpreting.EqualityNegation | Interpreter.py:110-114 | `==` and `!=` never raise, and `!=` is the negation of `==` |
| Interpreting.IsEqualEquivalence | Interpreter.py:118-120 | `is_equal` is reflexive, symmetric and transitive |
| Interpreting.Render | Interpreter.py:125-131 | a printed string is two characters longer than the string, starts and ends with a double quote, and holds the string between them; booleans print as True and False, and None as None |
| Interpreting.Execute | Interpreter.py:122-131 | a statement raises exactly when its expression does; an expression statement writes nothing, and a print statement writes exactly one line |
| Interpreting.Interpretation | Interpreter.py:8-16 | returning False means every statement ran to completion |
| Interpreting.InterpretationStops | Interpreter.py:8-16 | when all statements run, `interpret` returns False after their output; at the first runtime error it returns True after the earlier output and the error's `[line N]` line, and runs no later statement |
| Interpreting.InterpretationAppend | Interpreter.py:8-16 | running two statement lists in turn is running their concatenation; the second runs only if the first returned False |
| Interpreting.Interpreter.ExecuteStatement | Interpreter.py:18-19 | appends exactly the lines of `Execute`, or gives its exception and writes nothing |
| Interpreting.Interpreter.Interpret | Interpreter.py:8-16 | the outcome and the appended console lines are those of `Interpretation` |
| Environments.LookupNearest | Environment.py:14-21 | the nearest scope holding the name gives its value; the lookup fails exactly when no scope holds it |
| Environments.Shadowing | Environment.py:14-16 | an inner binding shadows every outer one |
| Environments.AssignNearest | Environment.py:23-31 | assignment succeeds exactly when lookup does; afterwards lookup gives the new value; no scope gains or loses a key; only the nearest scope changes, and only in that name |
| Environments.Undefined | Environment.py:21 | the error carries the token; its message is `Undefined variable '`, then the lexeme, then `'.`, and 22 characters longer than the lexeme |
| Environments.Environment.constructor | Environment.py:6-9 | a new scope holds the given values and is nested in the given one |
| Environments.Environment.Define | Environment.py:11-12 | binds or rebinds the name in this scope only; no enclosing scope changes; a lookup then gives the value |
| Environments.Environment.Get | Environment.py:14-21 | gives the nearest binding along the chain, or the undefined-variable error at the token |
| Environments.Environment.Assign | Environment.py:23-31 | updates the chain as `AssignIn` does; if no scope binds the name, raises the undefined-variable error and changes nothing |
| AstPrinting.LiteralText | AstPrinter.py:19-23 | a falsy literal (None, False, 0.0, "") prints as "None"; a truthy number or `True` prints as the interpreter prints it, and a truthy string as the interpreter's rendering without its quotes |
| AstPrinting.Parenthesize | AstPrinter.py:9-11 | the text is `(`, the name, one space, the parts joined by single spaces, and `)`; its length is the sum of theirs plus three |
| AstPrinting.Print | AstPrinter.py:6-26 | every non-literal rendering is wrapped in parentheses |
| AstPrinting.Renderings | AstPrinter.py:9-26 | Binary is `(op left right)`, Grouping `(group inner)`, Unary `(op right)`, with the children separated by single spaces in order |
| AstPrinting.PrintBalanced | AstPrinter.py:9-26 | with no parenthesis in lexemes or literal texts, the rendering holds one `(` and one `)` per interior node |
| Pipeline.ScannedTokensParse | Scanner.py:45-51 | the list `scan_tokens` leaves satisfies the parser's precondition: non-empty, ends with EOF, and has no other EOF token |
| Pipeline.ScannedLiteralsTyped | Scanner.py:45-51 | every NUMBER token `scan_tokens` makes carries a number, and it makes no STRING token |
| Pipeline.SourceYield | Parser.py:81-87 | when a scanned source parses as an expression, the tree lists exactly the kinds of the tokens consumed |
| Pipeline.GrammarTreesKnownOperators | Interpreter.py:39 | no tree the grammar admits reaches the evaluator's bare `Exception` |
| Pipeline.ParsedPrintReturns | Interpreter.py:8-16 | printing a parsed expression returns from `interpret` after exactly one line, either the value or the runtime error |

## Left out

- `TokenType.py` is not part of this model. The token kinds are declared as the datatype `TokenKind`.
- Floating point. Numbers are reals: there is no rounding, no `-0.0` and no NaN.
- `Scanning.Scanner.ScanNumber` gives a number lexeme's value as the exact decimal value of its digits. Python's `float()` conversion, with its rounding, is not modelled.
- Python's text for a float (`str(3.0)` is "3.0") is the parameter `numText`. It is used by `Render`, `LiteralText` and `Interpreter`.
- `Chars.IsDigit` accepts the ASCII digits only. Python's `str.isdigit` also accepts other Unicode digits. With the lexeme slice as intended, the source scans such a digit as a NUMBER: `float()` converts `'٣'` to 3.0 and raises ValueError on `'²'`. The model reports "Unexpected character." for it instead.
- `Scanning.Scanner.ScanString` is modelled and proved, but `scan_token` never calls it (see the quirks above).
- `Scanning.Scanner.PeekNext` gives None where the source raises IndexError (at the end of input). `ScanNumber` never calls it there, because a `.` is under the cursor.
- Python's recursion limit is not modelled. About 150 nested parentheses raise RecursionError in the parser, the evaluator and the printer. The model gives a result at every depth.
- Scanning.Scanner.tokens: the scanner keeps its own copy of the list passed to its constructor, whereas Scanner.py:40 appends to the caller's list object in place; that aliasing is not modelled, because the caller only uses the list `scan_tokens` returns.
- The Yield lemmas (`ParsingProperties.ExpressionYield` and its companions) assume every NUMBER token carries a number and every STRING token a string. `Pipeline.ScannedLiteralsTyped` shows that the scanner's tokens meet this.
- `Scanning.Scanner.constructor` takes the default cursor only (start 0, current 0, line 1). The optional `start`, `current` and `line` arguments are not modelled.
- `Parsing.Parser.Parse` gives no tree on a parse error. The source returns an empty `Expr()` instance there.
- Console output is not performed. `report`, `runtime_error` and `visit_print_stmt` return or append their lines to a sequence of strings.
- `report`'s assignment to `had_error` binds a local of the function and has no effect, so it is left out.
- `main.py` is not part of this model: file reading, the prompt loop, and passing `parse()`'s result tuple into `interpret`.
- `GenerateAST.py` is not part of this model: it generates code. Only the four expression variants and two statement variants that the parser and the interpreter use are modelled.
- `AstPrinter.main` is left out: it is a demo that prints one fixed tree.
- The printer's method names are `visit_binary`, `visit_grouping`, `visit_literal` and `visit_unary`. They differ from the `visit_<name>_expr` names that `GenerateAST.py` generates for `accept`. `Print` models the renderers as their names intend, each applied to its own node kind.
- `Token.to_string` is left out: it relies on Python's `str()` of an enum and a literal.
- The interpreter in this snapshot does not use `Environment`, so `Environments` is modelled on its own.

=== FILE: ast_printer.dfy ===
/**
 * The fully parenthesised pretty-printer over expressions (AstPrinter.py).
 * Python's `str()` of a float is the parameter `numText`.
 */
module AstPrinting {
  import opened Chars
  import opened Tokens
  import opened Syntax
  import Interpreting
  import opened Sequences

  /** Python's truth test on a literal value: None, False, 0.0 and "" are falsy. */
  predicate Falsy(v: Value)
  {
    v.Nil? || v == Bool(false) || v == Num(0.0) || v == Str("")
  }

  /**
   * `visit_literal`: "None" for a falsy value, and otherwise `str(value)`.
   * A truthy literal is shown as a print statement shows its value, except
   * that a string goes without the double quotes a print statement adds.
   */
  function LiteralText(v: Value, numText: real -> string): (r: string)
    ensures Falsy(v) ==> r == "None"
    ensures !Falsy(v) && !v.Str? ==> r == Interpreting.Render(v, numText)
    ensures !Falsy(v) && v.Str? ==>
              var shown := Interpreting.Render(v, numText);
              shown == "\"" + r + "\""
  {
    if Falsy(v) then "None"
    else
      match v
      case Str(s) => s
      case Num(x) => numText(x)
      case Bool(_) => "True"
      case Nil => "None"
  }

  /**
   * `parenthesize(name, *expressions)`: the name and the renderings,
   * space-separated, in parentheses. The name reads back from just after
   * the opening parenthesis, and the joined renderings from between the
   * space after it and the closing parenthesis.
   */
  function Parenthesize(name: string, parts: seq<string>): (r: string)
    ensures |r| == |name| + |Join(parts, " ")| + 3
    ensures r[0] == '(' && r[|r| - 1] == ')'
    ensures r[1..|name| + 1] == name && r[|name| + 1] == ' '
    ensures r[|name| + 2..|r| - 1] == Join(parts, " ")
  {
    "(" + name + " " + Join(parts, " ") + ")"
  }

  /** `print(expr)`: the rendering of a tree. */
  function Print(e: Expr, numText: real -> string): (r: string)
    ensures !e.Literal? ==> |r| >= 3 && r[0] == '(' && r[|r| - 1] == ')'
  {
    match e
    case Literal(v) => LiteralText(v, numText)
    case Grouping(inner) => Parenthesize("group", [Print(inner, numText)])
    case Unary(op, right) => Parenthesize(op.lexeme, [Print(right, numText)])
    case Binary(left, op, right) => Parenthesize(op.lexeme, [Print(left, numText), Print(right, numText)])
  }

  /** The four renderers, written out: a node's children appear in order, separated by single spaces. */
  lemma Renderings(e: Expr, numText: real -> string)
    ensures e.Binary? ==>
              Print(e, numText) == "(" + e.operator.lexeme + " " + Print(e.left, numText) + " " + Print(e.right, numText) + ")"
    ensures e.Grouping? ==> Print(e, numText) == "(group " + Print(e.expression, numText) + ")"
    ensures e.Unary? ==> Print(e, numText) == "(" + e.operator.lexeme + " " + Print(e.right, numText) + ")"
    ensures e.Literal? ==> Print(e, numText) == LiteralText(e.value, numText)
  {
    match e
    case Literal(_) =>
    case Grouping(_) =>
    case Unary(_, _) =>
    case Binary(left, op, right) =>
      var l, r := Print(left, numText), Print(right, numText);
      var opening := "(" + op.lexeme + " ";
      calc {
        Print(e, numText);
        opening + Join([l, r], " ") + ")";
        { assert Join([l, r], " ") == l + " " + r; }
        opening + (l + " " + r) + ")";
        { AppendAssoc(opening, l + " ", r); AppendAssoc(opening, l, " "); }
        opening + l + " " + r + ")";
      }
  }

  /** The number of interior (non-literal) nodes of a tree. */
  function Interior(e: Expr): nat
  {
    match e
    case Literal(_) => 0
    case Grouping(inner) => 1 + Interior(inner)
    case Unary(_, right) => 1 + Interior(right)
    case Binary(left, _, right) => 1 + Interior(left) + Interior(right)
  }

  /** Neither an operator lexeme nor a literal's text in the tree holds a parenthesis. */
  predicate ParenFree(e: Expr, numText: real -> string)
  {
    match e
    case Literal(v) => Count(LiteralText(v, numText), '(') == 0 && Count(LiteralText(v, numText), ')') == 0
    case Grouping(inner) => ParenFree(inner, numText)
    case Unary(op, right) => Count(op.lexeme, '(') == 0 && Count(op.lexeme, ')') == 0 && ParenFree(right, numText)
    case Binary(left, op, right) =>
      && Count(op.lexeme, '(') == 0 && Count(op.lexeme, ')') == 0
      && ParenFree(left, numText) && ParenFree(right, numText)
  }

  /** The parentheses in a parenthesised rendering, given those of its name and parts. */
  lemma {:induction false} ParenthesizeCounts(name: string, parts: seq<string>, c: char)
    requires 1 <= |parts| <= 2 && c in {'(', ')'}
    ensures Count(Parenthesize(name, parts), c) ==
              1 + Count(name, c) + Count(parts[0], c) + (if |parts| == 2 then Count(parts[1], c) else 0)
  {
    var sp := " ";
    assert Count(sp, c) == 0;
    assert Count("(", c) + Count(")", c) == 1;
    var body := Join(parts, " ");
    if |parts| == 2 {
      assert body == parts[0] + sp + parts[1];
      CountAppend(parts[0], sp, c);
      CountAppend(parts[0] + sp, parts[1], c);
    }
    CountAppend("(", name, c);
    CountAppend("(" + name, sp, c);
    CountAppend("(" + name + sp, body, c);
    CountAppend("(" + name + sp + body, ")", c);
  }

  /** A parenthesised rendering of paren-free name and `n` pairs in its parts holds `n + 1` pairs. */
  lemma ParenthesizedBalanced(name: string, parts: seq<string>, n: nat)
    requires 1 <= |parts| <= 2
    requires Count(name, '(') == 0 && Count(name, ')') == 0
    requires Count(parts[0], '(') + (if |parts| == 2 then Count(parts[1], '(') else 0) == n
    requires Count(parts[0], ')') + (if |parts| == 2 then Count(parts[1], ')') else 0) == n
    ensures Count(Parenthesize(name, parts), '(') == n + 1
    ensures Count(Parenthesize(name, parts), ')') == n + 1
  {
    ParenthesizeCounts(name, parts, '(');
    ParenthesizeCounts(name, parts, ')');
  }

  /**
   * The rendering is balanced: when no lexeme or literal text holds a
   * parenthesis, it holds exactly one `(` and one `)` per interior node.
   */
  lemma {:induction false} PrintBalanced(e: Expr, numText: real -> string)
    requires ParenFree(e, numText)
    ensures Count(Print(e, numText), '(') == Interior(e)
    ensures Count(Print(e, numText), ')') == Interior(e)
  {
    match e
    case Literal(_) =>
    case Grouping(inner) =>
      PrintBalanced(inner, numText);
      assert Count("group", '(') == 0 && Count("group", ')') == 0;
      ParenthesizedBalanced("group", [Print(inner, numText)], Interior(inner));
    case Unary(op, right) =>
      PrintBalanced(right, numText);
      ParenthesizedBalanced(op.lexeme, [Print(right, numText)], Interior(right));
    case Binary(left, op, right) =>
      PrintBalanced(left, numText);
      PrintBalanced(right, numText);
      ParenthesizedBalanced(op.lexeme, [Print(left, numText), Print(right, numText)], Interior(left) + Interior(right));
  }
}

=== FILE: chars.dfy ===
/**
 * Character classes and decimal text shared by the scanner, the error
 * formatter and the printers.
 *
 * The source tests characters with `str.isdigit()` and with the regular
 * expressions `[a-zA-Z_]` / `[a-zA-Z0-9_]`; here they are plain predicates
 * over ASCII.
 */
module Chars {

  predicate IsDigit(c: char) {
    '0' <= c <= '9'
  }

  predicate IsAlpha(c: char) {
    'a' <= c <= 'z' || 'A' <= c <= 'Z'
  }

  /** The class `[a-zA-Z_]` that may start an identifier. */
  predicate IsIdentStart(c: char) {
    IsAlpha(c) || c == '_'
  }

  /** The class `[a-zA-Z0-9_]` that may continue an identifier. */
  predicate IsIdentCont(c: char) {
    IsIdentStart(c) || IsDigit(c)
  }

  predicate AllDigits(s: string) {
    forall i :: 0 <= i < |s| ==> IsDigit(s[i])
  }

  /** `str.isdigit()` on a text of length 0 or 1: false on the empty text. */
  predicate IsDigitText(s: string) {
    |s| == 1 && IsDigit(s[0])
  }

  /** The regular-expression match `[a-zA-Z0-9_]` at the start of a text of length 0 or 1. */
  predicate IsIdentContText(s: string) {
    |s| >= 1 && IsIdentCont(s[0])
  }

  function DigitChar(d: nat): (c: char)
    requires d < 10
    ensures IsDigit(c) && c as int - '0' as int == d
  {
    ('0' as int + d) as char
  }

  /** The decimal rendering of a natural number, as Python's `str(int)` gives it. */
  function NatText(n: nat): (r: string)
    ensures |r| > 0 && AllDigits(r)
    ensures n < 10 <==> |r| == 1
  {
    if n < 10 then [DigitChar(n)] else NatText(n / 10) + [DigitChar(n % 10)]
  }

  /** The value of a run of decimal digits (what `float()` computes for one). */
  function DecimalValue(s: string): nat
    requires AllDigits(s)
  {
    if s == [] then 0
    else 10 * DecimalValue(s[..|s| - 1]) + (s[|s| - 1] as int - '0' as int)
  }

  /** Reading back the decimal text of `n` gives `n`. */
  lemma {:induction false} DecimalOfNatText(n: nat)
    ensures DecimalValue(NatText(n)) == n
  {
    if n >= 10 {
      var t := NatText(n);
      assert t[..|t| - 1] == NatText(n / 10);
      DecimalOfNatText(n / 10);
    }
  }

  /** Python's `sep.join(parts)`. */
  function Join(parts: seq<string>, sep: string): (r: string)
    ensures parts == [] ==> r == ""
    ensures |parts| == 1 ==> r == parts[0]
  {
    if parts == [] then ""
    else if |parts| == 1 then parts[0]
    else parts[0] + sep + Join(parts[1..], sep)
  }

  /** The number of occurrences of `c` in `s`. */
  function Count(s: string, c: char): nat
  {
    if s == [] then 0 else (if s[0] == c then 1 else 0) + Count(s[1..], c)
  }

  lemma {:induction false} CountAppend(a: string, b: string, c: char)
    ensures Count(a + b, c) == Count(a, c) + Count(b, c)
  {
    if a == [] {
      assert a + b == b;
    } else {
      assert (a + b)[1..] == a[1..] + b;
      CountAppend(a[1..], b, c);
    }
  }
}

=== FILE: environment.dfy ===
/**
 * The chain of variable scopes (Environment.py).
 *
 * An `Environment` holds the bindings of one scope in `values`, which
 * `define` and `assign` update in place, and a reference to the scope
 * that encloses it. The pure functions over `seq<map<string, Value>>`
 * (innermost scope first) say what a lookup and an assignment along the
 * chain mean; the methods are proved against them through `Scopes()`.
 */
module Environments {
  import opened Results
  import opened Tokens
  import opened Syntax
  import opened RuntimeErrors

  type Scope = map<string, Value>

  /** The nearest binding of `name` along the scopes, innermost first. */
  function Lookup(scopes: seq<Scope>, name: string): Option<Value>
  {
    if scopes == [] then None
    else if name in scopes[0] then Some(scopes[0][name])
    else Lookup(scopes[1..], name)
  }

  /**
   * The scopes after assigning `value` to `name`: the nearest scope that
   * binds the name is updated, or None when no scope binds it.
   */
  function AssignIn(scopes: seq<Scope>, name: string, value: Value): Option<seq<Scope>>
  {
    if scopes == [] then None
    else if name in scopes[0] then Some([scopes[0][name := value]] + scopes[1..])
    else
      match AssignIn(scopes[1..], name, value)
      case None => None
      case Some(rest) => Some([scopes[0]] + rest)
  }

  /** The index of the nearest scope that binds `name`. */
  predicate NearestAt(scopes: seq<Scope>, name: string, i: nat)
  {
    i < |scopes| && name in scopes[i] && forall j :: 0 <= j < i ==> name !in scopes[j]
  }

  /**
   * The nearest binding wins: a lookup finds exactly the binding of the
   * first scope, innermost first, that holds the name, and fails exactly
   * when no scope holds it.
   */
  lemma {:induction false} LookupNearest(scopes: seq<Scope>, name: string)
    ensures Lookup(scopes, name).None? <==> forall j :: 0 <= j < |scopes| ==> name !in scopes[j]
    ensures forall i: nat :: NearestAt(scopes, name, i) ==> Lookup(scopes, name) == Some(scopes[i][name])
  {
    if scopes != [] {
      LookupNearest(scopes[1..], name);
      forall i: nat | NearestAt(scopes, name, i)
        ensures Lookup(scopes, name) == Some(scopes[i][name])
      {
        if i > 0 {
          assert NearestAt(scopes[1..], name, i - 1);
        }
      }
      if name !in scopes[0] && Lookup(scopes[1..], name).None? {
        forall j | 0 <= j < |scopes|
          ensures name !in scopes[j]
        {
          if j > 0 {
            assert scopes[j] == scopes[1..][j - 1];
          }
        }
      }
    }
  }

  /** An inner binding shadows every outer one. */
  lemma Shadowing(inner: Scope, outer: seq<Scope>, name: string)
    requires name in inner
    ensures Lookup([inner] + outer, name) == Some(inner[name])
  {
  }

  /**
   * Assignment finds a binding exactly when lookup does; afterwards lookup
   * gives the new value; the number of scopes and every scope's keys stay
   * the same (no binding is ever created); and only the nearest scope
   * holding the name changes, in that name alone.
   */
  lemma {:induction false} AssignNearest(scopes: seq<Scope>, name: string, value: Value)
    ensures AssignIn(scopes, name, value).Some? <==> Lookup(scopes, name).Some?
    ensures AssignIn(scopes, name, value).Some? ==>
              var after := AssignIn(scopes, name, value).value;
              && |after| == |scopes|
              && Lookup(after, name) == Some(value)
              && (forall j :: 0 <= j < |scopes| ==> after[j].Keys == scopes[j].Keys)
              && (forall i: nat :: NearestAt(scopes, name, i) ==>
                    && after[i] == scopes[i][name := value]
                    && forall j :: 0 <= j < |scopes| && j != i ==> after[j] == scopes[j])
  {
    if scopes != [] && name !in scopes[0] {
      AssignNearest(scopes[1..], name, value);
      if AssignIn(scopes, name, value).Some? {
        var after := AssignIn(scopes, name, value).value;
        var rest := AssignIn(scopes[1..], name, value).value;
        assert after == [scopes[0]] + rest;
        forall i: nat | NearestAt(scopes, name, i)
          ensures after[i] == scopes[i][name := value]
          ensures forall j :: 0 <= j < |scopes| && j != i ==> after[j] == scopes[j]
        {
          assert NearestAt(scopes[1..], name, i - 1);
        }
      }
    }
  }

  /**
   * The error `get` and `assign` raise for a name bound nowhere: it is
   * raised at the token, and the variable's name reads back from between
   * the quotes of its message.
   */
  function Undefined(name: Token): (e: LoxRuntimeError)
    ensures e.token == name
    ensures |e.message| == |name.lexeme| + 22
    ensures e.message[..20] == "Undefined variable '"
    ensures e.message[20..|e.message| - 2] == name.lexeme
    ensures e.message[|e.message| - 2..] == "'."
  {
    LoxRuntimeError(name, "Undefined variable '" + name.lexeme + "'.")
  }

  class Environment {
    /** The scope this one is nested in, or null for the outermost scope. */
    const enclosing: Environment?
    /** The bindings of this scope. */
    var values: Scope
    /** This environment and every environment it encloses. */
    ghost const Repr: set<object>

    ghost predicate Valid()
      reads Repr
      decreases Repr
    {
      && this in Repr
      && (enclosing != null ==>
            && enclosing in Repr && enclosing.Repr < Repr && this !in enclosing.Repr
            && enclosing.Valid())
    }

    /** The bindings along the chain, innermost first. */
    ghost function Scopes(): (s: seq<Scope>)
      requires Valid()
      reads Repr
      ensures |s| > 0 && s[0] == values
      decreases Repr
    {
      [values] + (if enclosing == null then [] else enclosing.Scopes())
    }

    /**
     * A new scope nested in `enclosing` with the initial bindings `values`
     * (the dataclass's defaults are null and the empty dictionary).
     */
    constructor (enclosing: Environment?, values: Scope)
      requires enclosing != null ==> enclosing.Valid()
      ensures Valid() && fresh(Repr - (if enclosing == null then {} else enclosing.Repr))
      ensures this.enclosing == enclosing && this.values == values
      ensures Scopes() == [values] + (if enclosing == null then [] else enclosing.Scopes())
    {
      this.enclosing := enclosing;
      this.values := values;
      Repr := {this} + (if enclosing == null then {} else enclosing.Repr);
    }

    /** `define(name, value)`: binds or rebinds the name in this scope only. */
    method Define(name: string, value: Value)
      requires Valid()
      modifies this`values
      ensures Valid()
      ensures values == old(values)[name := value]
      ensures Scopes() == [old(values)[name := value]] + old(Scopes())[1..]
      ensures Lookup(Scopes(), name) == Some(value)
    {
      values := values[name := value];
    }

    /**
     * `get(name)`: the nearest binding of the token's lexeme along the
     * chain, or the error "Undefined variable '<lexeme>'." at the token.
     */
    method Get(name: Token) returns (r: Result<Value, LoxRuntimeError>)
      requires Valid()
      ensures Lookup(Scopes(), name.lexeme).Some? ==> r == Ok(Lookup(Scopes(), name.lexeme).value)
      ensures Lookup(Scopes(), name.lexeme).None? ==> r == Err(Undefined(name))
      decreases Repr
    {
      if name.lexeme in values {
        return Ok(values[name.lexeme]);
      }
      if enclosing != null {
        r := enclosing.Get(name);
        return;
      }
      return Err(Undefined(name));
    }

    /**
     * `assign(name, value)`: rebinds the name in the nearest scope that
     * binds it; when no scope does, raises "Undefined variable '<lexeme>'."
     * at the token and changes nothing.
     */
    method Assign(name: Token, value: Value) returns (error: Option<LoxRuntimeError>)
      requires Valid()
      modifies Repr
      ensures Valid()
      ensures AssignIn(old(Scopes()), name.lexeme, value).Some? ==>
                error == None && Scopes() == AssignIn(old(Scopes()), name.lexeme, value).value
      ensures AssignIn(old(Scopes()), name.lexeme, value).None? ==>
                error == Some(Undefined(name)) && Scopes() == old(Scopes())
      decreases Repr
    {
      if name.lexeme in values {
        values := values[name.lexeme := value];
        return None;
      }
      if enclosing != null {
        error := enclosing.Assign(name, value);
        return;
      }
      assert old(Scopes()) == [values];
      assert AssignIn([values][1..], name.lexeme, value) == None;
      return Some(Undefined(name));
    }
  }
}

=== FILE: errors.dfy ===
/**
 * Error-report formatting (Error.py). Each operation there prints one
 * line; here it returns that line, and the callers append it to the
 * console they keep. The assignment `had_error = True` in `report` binds
 * a local of the function and changes nothing else, so reporting has no
 * effect beyond the line itself.
 */
module Errors {
  import opened Chars
  import opened Results
  import opened Tokens

  /**
   * The line `[line <line>] Error <where>: <message>`: its tag reads back
   * as the line number, it ends with the location hint and the message,
   * and its length leaves room for nothing but the tag's digits between.
   */
  function Report(line: nat, where: string, message: string): (r: string)
    ensures ReadLine(r) == Some(line)
    ensures EndsWith(r, "] Error " + where + ": " + message)
    ensures |r| == |"[line "| + |NatText(line)| + |"] Error " + where + ": " + message|
  {
    var t := NatText(line);
    var rest := "] Error " + where + ": " + message;
    TagReadsBack(t, rest);
    DecimalOfNatText(line);
    assert ("[line " + (t + rest))[|"[line " + (t + rest)| - |rest|..] == rest;
    "[line " + (t + rest)
  }

  /**
   * `error(line, message)`: a report on `line` with an empty location hint.
   * Its length is the tag's digits, the message and the 16 characters of
   * `[line ` and `] Error : `.
   */
  function ErrorText(line: nat, message: string): (r: string)
    ensures ReadLine(r) == Some(line)
    ensures EndsWith(r, "] Error : " + message)
    ensures |r| == |NatText(line)| + 16 + |message|
  {
    assert "] Error " + "" + ": " + message == "] Error : " + message;
    Report(line, "", message)
  }

  /**
   * `parse_error(token, message)`: a report on the token's line whose
   * location hint is ` at end` for the end-of-input token and
   * ` at '<lexeme>'` for any other token.
   */
  function ParseErrorText(token: Token, message: string): (r: string)
    ensures ReadLine(r) == Some(token.line)
    ensures token.kind == Eof ==> EndsWith(r, "] Error " + " at end" + ": " + message)
    ensures token.kind != Eof ==> EndsWith(r, "] Error " + (" at '" + token.lexeme + "'") + ": " + message)
    ensures token.kind == Eof ==> |r| == |"[line "| + |NatText(token.line)| + |"] Error " + " at end" + ": " + message|
    ensures token.kind != Eof ==>
              |r| == |"[line "| + |NatText(token.line)| + |"] Error " + (" at '" + token.lexeme + "'") + ": " + message|
  {
    if token.kind == Eof then Report(token.line, " at end", message)
    else Report(token.line, " at '" + token.lexeme + "'", message)
  }

  /** The longest prefix of `s` made of decimal digits. */
  function DigitPrefix(s: string): (d: string)
    ensures AllDigits(d) && |d| <= |s| && d == s[..|d|]
    ensures |d| < |s| ==> !IsDigit(s[|d|])
  {
    if s != [] && IsDigit(s[0]) then [s[0]] + DigitPrefix(s[1..]) else []
  }

  /** Reads the line number back out of a report's `[line N]` tag. */
  function ReadLine(r: string): Option<nat>
  {
    if |r| >= 6 && r[..6] == "[line " then
      var d := DigitPrefix(r[6..]);
      if 0 < |d| < |r| - 6 && r[6 + |d|] == ']' then Some(DecimalValue(d)) else None
    else None
  }

  /** The message of a report is its suffix after the tag and the location hint. */
  predicate EndsWith(r: string, suffix: string)
  {
    |suffix| <= |r| && r[|r| - |suffix|..] == suffix
  }

  lemma {:induction false} DigitPrefixOfDigits(d: string, rest: string)
    requires AllDigits(d)
    requires rest == [] || !IsDigit(rest[0])
    ensures DigitPrefix(d + rest) == d
  {
    if d != [] {
      assert (d + rest)[1..] == d[1..] + rest;
      DigitPrefixOfDigits(d[1..], rest);
    } else {
      assert d + rest == rest;
    }
  }

  lemma TagReadsBack(t: string, rest: string)
    requires |t| > 0 && AllDigits(t)
    requires |rest| > 0 && rest[0] == ']'
    ensures ReadLine("[line " + (t + rest)) == Some(DecimalValue(t))
  {
    var r := "[line " + (t + rest);
    assert r[..6] == "[line ";
    assert r[6..] == t + rest;
    DigitPrefixOfDigits(t, rest);
    assert r[6 + |t|] == ']';
  }
}

=== FILE: interpreter.dfy ===
/**
 * The tree-walking evaluator (Interpreter.py).
 *
 * `Evaluate` and the operator functions below are the pure part: they give
 * the value of an expression, or the exception it raises. A raised
 * `LoxRuntimeError` is a `RuntimeFault`; the bare `Exception` raised for
 * an operator the evaluator does not know is an `InternalFault`, which
 * `interpret` does not catch. The class `Interpreter` is the imperative
 * part: the statement loop with its early exit, writing to a console.
 */
module Interpreting {
  import opened Results
  import opened Tokens
  import opened Syntax
  import opened RuntimeErrors
  import opened Sequences

  /** What evaluating an expression can raise. */
  datatype Fault = RuntimeFault(error: LoxRuntimeError) | InternalFault

  /** The four messages of the runtime errors the evaluator raises. */
  const OperandMessage := "Operand must be a number."
  const PlusMessage := "Operands must be two numbers or two strings."
  const OperandsMessage := "Operands must be a numbers."
  const ZeroMessage := "Divide by zero error."

  /** The operator tokens of a tree: the tokens a runtime error can be raised at. */
  function Operators(e: Expr): set<Token>
  {
    match e
    case Literal(_) => {}
    case Grouping(inner) => Operators(inner)
    case Unary(op, right) => {op} + Operators(right)
    case Binary(left, op, right) => {op} + Operators(left) + Operators(right)
  }

  /**
   * What `is_truthy` is handed. The source tests its argument for being a
   * Literal node, although the evaluator only ever hands it evaluated
   * values.
   */
  datatype Operand = Evaluated(value: Value) | Node(expr: Expr)

  /**
   * `is_truthy`: false only for a Literal node holding None or False;
   * everything else, every evaluated value included, is truthy.
   */
  function IsTruthy(o: Operand): (r: bool)
    ensures o.Evaluated? ==> r
    ensures o.Node? && o.expr.Literal? ==> (r <==> !(o.expr.value.Nil? || o.expr.value == Bool(false)))
    ensures o.Node? && !o.expr.Literal? ==> r
  {
    match o
    case Node(Literal(Nil)) => false
    case Node(Literal(Bool(b))) => b
    case _ => true
  }

  /**
   * `is_equal`: Python's `==` on the runtime values. Values of different
   * types are unequal, except that a bool equals the number 1.0 (True) or
   * 0.0 (False).
   */
  function IsEqual(a: Value, b: Value): (r: bool)
    ensures a == b ==> r
    ensures (a.Str? || a.Nil? || b.Str? || b.Nil?) ==> (r <==> a == b)
    ensures a.Num? && b.Num? ==> (r <==> a.x == b.x)
    ensures a.Bool? && b.Bool? ==> (r <==> a.b == b.b)
    ensures a.Bool? && b.Num? ==> (r <==> b.x == (if a.b then 1.0 else 0.0))
    ensures a.Num? && b.Bool? ==> (r <==> a.x == (if b.b then 1.0 else 0.0))
  {
    match (a, b)
    case (Num(x), Num(y)) => x == y
    case (Str(s), Str(t)) => s == t
    case (Bool(p), Bool(q)) => p == q
    case (Nil, Nil) => true
    case (Bool(p), Num(y)) => y == (if p then 1.0 else 0.0)
    case (Num(x), Bool(q)) => x == (if q then 1.0 else 0.0)
    case _ => false
  }

  /** A runtime error at `op` with `message`. */
  function Raise(op: Token, message: string): Result<Value, Fault>
  {
    Err(RuntimeFault(LoxRuntimeError(op, message)))
  }

  /**
   * `visit_unary_expr` once its operand has been evaluated to `right`: `-`
   * gives the number that sums with the operand to zero, or raises "Operand
   * must be a number." at the operator; `!` always gives false; any other
   * operator raises the bare exception.
   */
  function EvalUnary(op: Token, right: Value): (r: Result<Value, Fault>)
    ensures r == Err(InternalFault) <==> op.kind != Minus && op.kind != Bang
    ensures r.Ok? && op.kind == Minus ==> right.Num? && r.value.Num? && r.value.x + right.x == 0.0
    ensures op.kind == Bang ==> r == Ok(Bool(false))
    ensures r.Err? && r.error.RuntimeFault? ==>
              op.kind == Minus && !right.Num? && r.error.error == LoxRuntimeError(op, OperandMessage)
  {
    if op.kind == Minus then
      if right.Num? then Ok(Num(-right.x)) else Raise(op, OperandMessage)
    else if op.kind == Bang then
      Ok(Bool(!IsTruthy(Evaluated(right))))
    else
      Err(InternalFault)
  }

  /** The operators `check_number_operands` guards. */
  predicate NumericOperator(kind: TokenKind)
  {
    kind == Minus || kind == Star || kind == Slash
    || kind == Greater || kind == GreaterEqual || kind == Less || kind == LessEqual
  }

  /** The operators `visit_binary_expr` has a branch for. */
  predicate BinaryKnown(kind: TokenKind)
  {
    kind == Plus || NumericOperator(kind) || kind == BangEqual || kind == EqualEqual
  }

  /**
   * `visit_binary_expr` once its operands have been evaluated to `l` and
   * `r`: the bare exception exactly for an operator it has no branch for;
   * a runtime error is raised at the operator with one of the three binary
   * messages; a value from `+` comes from two numbers or two strings, and
   * one from a numeric operator from two numbers.
   */
  function EvalBinary(op: Token, l: Value, r: Value): (res: Result<Value, Fault>)
    ensures res == Err(InternalFault) <==> !BinaryKnown(op.kind)
    ensures res.Err? && res.error.RuntimeFault? ==>
              && res.error.error.token == op
              && res.error.error.message in {PlusMessage, OperandsMessage, ZeroMessage}
    ensures res.Ok? && op.kind == Plus ==> (l.Num? && r.Num?) || (l.Str? && r.Str?)
    ensures res.Ok? && NumericOperator(op.kind) ==> l.Num? && r.Num?
  {
    if op.kind == Plus then
      if l.Num? && r.Num? then Ok(Num(l.x + r.x))
      else if l.Str? && r.Str? then Ok(Str(l.s + r.s))
      else Raise(op, PlusMessage)
    else if NumericOperator(op.kind) then
      if !(l.Num? && r.Num?) then Raise(op, OperandsMessage)
      else if op.kind == Minus then Ok(Num(l.x - r.x))
      else if op.kind == Star then Ok(Num(l.x * r.x))
      else if op.kind == Slash then
        if r.x == 0.0 then Raise(op, ZeroMessage) else Ok(Num(l.x / r.x))
      else if op.kind == Greater then Ok(Bool(l.x > r.x))
      else if op.kind == GreaterEqual then Ok(Bool(l.x >= r.x))
      else if op.kind == Less then Ok(Bool(l.x < r.x))
      else Ok(Bool(l.x <= r.x))
    else if op.kind == BangEqual then Ok(Bool(!IsEqual(l, r)))
    else if op.kind == EqualEqual then Ok(Bool(IsEqual(l, r)))
    else Err(InternalFault)
  }

  /**
   * `evaluate`: the value of a tree, operands left before right, or the
   * first exception raised. A runtime error always carries one of the four
   * messages and is raised at an operator token of the tree.
   */
  function Evaluate(e: Expr): (r: Result<Value, Fault>)
    ensures r.Err? && r.error.RuntimeFault? ==>
              && r.error.error.token in Operators(e)
              && r.error.error.message in {OperandMessage, PlusMessage, OperandsMessage, ZeroMessage}
  {
    match e
    case Literal(v) => Ok(v)
    case Grouping(inner) => Evaluate(inner)
    case Unary(op, right) =>
      (match Evaluate(right)
       case Err(f) => Err(f)
       case Ok(v) => EvalUnary(op, v))
    case Binary(left, op, right) =>
      match Evaluate(left)
      case Err(f) => Err(f)
      case Ok(a) =>
        match Evaluate(right)
        case Err(f) => Err(f)
        case Ok(b) => EvalBinary(op, a, b)
  }

  /**
   * `!` never yields true: `is_truthy` is handed an evaluated value, never
   * a Literal node, so `not is_truthy(v)` is False whatever `v` is.
   */
  lemma BangIsAlwaysFalse(op: Token, e: Expr)
    requires op.kind == Bang && Evaluate(e).Ok?
    ensures Evaluate(Unary(op, e)) == Ok(Bool(false))
  {
  }

  /** Unary `-` negates a number, and raises "Operand must be a number." at the operator on anything else. */
  lemma NegationCases(op: Token, e: Expr, v: Value)
    requires op.kind == Minus && Evaluate(e) == Ok(v)
    ensures v.Num? ==> Evaluate(Unary(op, e)) == Ok(Num(-v.x))
    ensures !v.Num? ==> Evaluate(Unary(op, e)) == Err(RuntimeFault(LoxRuntimeError(op, "Operand must be a number.")))
  {
  }

  /** Negating twice gives back the number. */
  lemma DoubleNegation(op1: Token, op2: Token, e: Expr, x: real)
    requires op1.kind == Minus && op2.kind == Minus && Evaluate(e) == Ok(Num(x))
    ensures Evaluate(Unary(op1, Unary(op2, e))) == Ok(Num(x))
  {
    NegationCases(op2, e, Num(x));
  }

  /**
   * The left operand is evaluated first: its exception is the tree's even
   * when the right operand would raise too; the right operand's exception
   * comes next; only then does the operator act.
   */
  lemma LeftBeforeRight(left: Expr, op: Token, right: Expr)
    ensures Evaluate(left).Err? ==> Evaluate(Binary(left, op, right)) == Evaluate(left)
    ensures Evaluate(left).Ok? && Evaluate(right).Err? ==> Evaluate(Binary(left, op, right)) == Evaluate(right)
    ensures Evaluate(left).Ok? && Evaluate(right).Ok? ==>
              Evaluate(Binary(left, op, right)) == EvalBinary(op, Evaluate(left).value, Evaluate(right).value)
  {
  }

  /**
   * `+` adds two numbers and concatenates two strings; any other pair of
   * operands raises "Operands must be two numbers or two strings." at the
   * operator.
   */
  lemma PlusCases(op: Token, a: Value, b: Value)
    requires op.kind == Plus
    ensures a.Num? && b.Num? ==> EvalBinary(op, a, b) == Ok(Num(a.x + b.x))
    ensures a.Str? && b.Str? ==> EvalBinary(op, a, b) == Ok(Str(a.s + b.s))
    ensures !(a.Num? && b.Num?) && !(a.Str? && b.Str?) ==>
              EvalBinary(op, a, b) == Err(RuntimeFault(LoxRuntimeError(op, "Operands must be two numbers or two strings.")))
  {
  }

  /** Subtracting what `+` added gives back the left number. */
  lemma PlusThenMinus(plus: Token, minus: Token, a: real, b: real)
    requires plus.kind == Plus && minus.kind == Minus
    ensures EvalBinary(plus, Num(a), Num(b)).Ok?
    ensures EvalBinary(minus, EvalBinary(plus, Num(a), Num(b)).value, Num(b)) == Ok(Num(a))
  {
  }

  /** A string sum starts with the left string and ends with the right one. */
  lemma ConcatenationParts(op: Token, s: string, t: string)
    requires op.kind == Plus
    ensures EvalBinary(op, Str(s), Str(t)).Ok?
    ensures var u := EvalBinary(op, Str(s), Str(t)).value;
            u.Str? && |u.s| == |s| + |t| && u.s[..|s|] == s && u.s[|s|..] == t
  {
  }

  /**
   * `-`, `*`, `/` and the comparisons raise "Operands must be a numbers."
   * at the operator unless both operands are numbers; the comparisons give
   * booleans and the arithmetic operators numbers; `*` gives the product.
   */
  lemma NumericOperands(op: Token, a: Value, b: Value)
    requires NumericOperator(op.kind)
    ensures !(a.Num? && b.Num?) ==>
              EvalBinary(op, a, b) == Err(RuntimeFault(LoxRuntimeError(op, "Operands must be a numbers.")))
    ensures EvalBinary(op, a, b).Ok? ==> a.Num? && b.Num?
    ensures a.Num? && b.Num? && op.kind in {Greater, GreaterEqual, Less, LessEqual} ==>
              EvalBinary(op, a, b).Ok? && EvalBinary(op, a, b).value.Bool?
    ensures EvalBinary(op, a, b).Ok? && op.kind in {Minus, Star, Slash} ==> EvalBinary(op, a, b).value.Num?
    ensures a.Num? && b.Num? && op.kind == Star ==> EvalBinary(op, a, b) == Ok(Num(a.x * b.x))
  {
    if a.Num? && b.Num? && op.kind == Star {
      var r := EvalBinary(op, a, b);
      assert r.Ok? && r.value.Num? && r.value.x == a.x * b.x;
    }
  }

  /** The comparisons order numbers as the reals do. */
  lemma ComparisonMeaning(op: Token, x: real, y: real)
    requires op.kind in {Greater, GreaterEqual, Less, LessEqual}
    ensures op.kind == Greater ==> EvalBinary(op, Num(x), Num(y)) == Ok(Bool(x > y))
    ensures op.kind == GreaterEqual ==> EvalBinary(op, Num(x), Num(y)) == Ok(Bool(x >= y))
    ensures op.kind == Less ==> EvalBinary(op, Num(x), Num(y)) == Ok(Bool(x < y))
    ensures op.kind == LessEqual ==> EvalBinary(op, Num(x), Num(y)) == Ok(Bool(x <= y))
  {
  }

  /**
   * `/` raises "Divide by zero error." at the operator when the divisor is
   * 0; otherwise its quotient times the divisor is the dividend.
   */
  lemma Division(op: Token, x: real, y: real)
    requires op.kind == Slash
    ensures y == 0.0 ==> EvalBinary(op, Num(x), Num(y)) == Err(RuntimeFault(LoxRuntimeError(op, "Divide by zero error.")))
    ensures y != 0.0 ==> EvalBinary(op, Num(x), Num(y)).Ok?
    ensures y != 0.0 ==> var q := EvalBinary(op, Num(x), Num(y)).value; q.Num? && q.x * y == x
  {
  }

  /** `==` and `!=` never raise, and `!=` is the negation of `==` on the same operands. */
  lemma EqualityNegation(eq: Token, ne: Token, a: Value, b: Value)
    requires eq.kind == EqualEqual && ne.kind == BangEqual
    ensures EvalBinary(eq, a, b).Ok? && EvalBinary(eq, a, b).value.Bool?
    ensures EvalBinary(ne, a, b) == Ok(Bool(!EvalBinary(eq, a, b).value.b))
  {
  }

  /** Python's `==` is an equivalence on the runtime values. */
  lemma IsEqualEquivalence(a: Value, b: Value, c: Value)
    ensures IsEqual(a, a)
    ensures IsEqual(a, b) == IsEqual(b, a)
    ensures IsEqual(a, b) && IsEqual(b, c) ==> IsEqual(a, c)
  {
  }

  /** How `visit_print_stmt` writes a value: a string in double quotes, anything else through `str()`. */
  function Render(v: Value, numText: real -> string): (r: string)
    ensures v.Str? ==> |r| == |v.s| + 2 && r[0] == '"' && r[|r| - 1] == '"' && r[1..|r| - 1] == v.s
    ensures v == Bool(true) ==> r == "True"
    ensures v == Bool(false) ==> r == "False"
    ensures v.Nil? ==> r == "None"
  {
    match v
    case Str(s) => "\"" + s + "\""
    case Num(x) => numText(x)
    case Bool(b) => if b then "True" else "False"
    case Nil => "None"
  }

  /**
   * `execute`: the console lines a statement writes, or the exception it
   * raises. An expression statement writes nothing; a print statement
   * writes exactly one line.
   */
  function Execute(s: Stmt, numText: real -> string): (r: Result<seq<string>, Fault>)
    ensures r.Err? <==> Evaluate(s.expression).Err?
    ensures r.Err? ==> r.error == Evaluate(s.expression).error
    ensures r.Ok? && s.ExpressionStmt? ==> r.value == []
    ensures r.Ok? && s.PrintStmt? ==> r.value == [Render(Evaluate(s.expression).value, numText)]
  {
    match Evaluate(s.expression)
    case Err(f) => Err(f)
    case Ok(v) => if s.PrintStmt? then Ok([Render(v, numText)]) else Ok([])
  }

  /**
   * How `interpret` ends: it returns (False when every statement ran, True
   * after a runtime error), or an internal exception escapes it.
   */
  datatype Outcome = Returned(hadError: bool) | Escaped

  /** A run of `interpret`: how it ends and the console lines it writes, in order. */
  datatype Run = Run(outcome: Outcome, output: seq<string>)

  /**
   * `interpret(statements)`: the statements run in order; the first
   * runtime error is reported with its `[line N]` line and ends the run.
   */
  function Interpretation(stmts: seq<Stmt>, numText: real -> string): (r: Run)
    ensures r.outcome == Returned(false) ==> forall i :: 0 <= i < |stmts| ==> Execute(stmts[i], numText).Ok?
  {
    if stmts == [] then Run(Returned(false), [])
    else
      match Execute(stmts[0], numText)
      case Err(RuntimeFault(error)) => Run(Returned(true), [RuntimeErrorText(error)])
      case Err(InternalFault) => Run(Escaped, [])
      case Ok(lines) =>
        var rest := Interpretation(stmts[1..], numText);
        Run(rest.outcome, lines + rest.output)
  }

  /** The console lines of statements that all run to completion. */
  function Outputs(stmts: seq<Stmt>, numText: real -> string): seq<string>
    requires forall i :: 0 <= i < |stmts| ==> Execute(stmts[i], numText).Ok?
  {
    if stmts == [] then [] else Execute(stmts[0], numText).value + Outputs(stmts[1..], numText)
  }

  lemma {:induction false} OutputsAppend(a: seq<Stmt>, b: seq<Stmt>, numText: real -> string)
    requires forall i :: 0 <= i < |a| ==> Execute(a[i], numText).Ok?
    requires forall i :: 0 <= i < |b| ==> Execute(b[i], numText).Ok?
    ensures forall i :: 0 <= i < |a + b| ==> Execute((a + b)[i], numText).Ok?
    ensures Outputs(a + b, numText) == Outputs(a, numText) + Outputs(b, numText)
  {
    if a == [] {
      assert a + b == b;
    } else {
      assert (a + b)[1..] == a[1..] + b;
      OutputsAppend(a[1..], b, numText);
    }
  }

  /**
   * `interpret` in terms of the statements one by one: when every one runs
   * it returns False having written their lines; when statement `k` is the
   * first to raise a runtime error it returns True, having written the
   * lines of the statements before `k` and then the error's line, and no
   * statement after `k` runs.
   */
  lemma {:induction false} InterpretationStops(stmts: seq<Stmt>, numText: real -> string, k: nat)
    requires k <= |stmts|
    requires forall i :: 0 <= i < k ==> Execute(stmts[i], numText).Ok?
    ensures k == |stmts| ==> Interpretation(stmts, numText) == Run(Returned(false), Outputs(stmts, numText))
    ensures k < |stmts| && Execute(stmts[k], numText).Err? && Execute(stmts[k], numText).error.RuntimeFault? ==>
              Interpretation(stmts, numText) ==
                Run(Returned(true), Outputs(stmts[..k], numText) + [RuntimeErrorText(Execute(stmts[k], numText).error.error)])
    decreases k
  {
    if k == 0 {
      assert stmts[..k] == [];
    } else {
      InterpretationStops(stmts[1..], numText, k - 1);
      assert stmts[1..][..k - 1] == stmts[..k][1..];
      if k < |stmts| && Execute(stmts[k], numText).Err? && Execute(stmts[k], numText).error.RuntimeFault? {
        var lines := Execute(stmts[0], numText).value;
        assert stmts[..k][0] == stmts[0];
        AppendAssoc(lines, Outputs(stmts[..k][1..], numText), [RuntimeErrorText(Execute(stmts[k], numText).error.error)]);
      }
    }
  }

  /**
   * Running two lists of statements one after the other is running their
   * concatenation: the second list runs only when the first returned False.
   */
  lemma {:induction false} InterpretationAppend(s1: seq<Stmt>, s2: seq<Stmt>, numText: real -> string)
    ensures var r1 := Interpretation(s1, numText);
            var r2 := Interpretation(s2, numText);
            Interpretation(s1 + s2, numText) ==
              if r1.outcome == Returned(false) then Run(r2.outcome, r1.output + r2.output) else r1
  {
    if s1 == [] {
      assert s1 + s2 == s2;
    } else {
      assert (s1 + s2)[0] == s1[0];
      assert (s1 + s2)[1..] == s1[1..] + s2;
      InterpretationAppend(s1[1..], s2, numText);
      match Execute(s1[0], numText)
      case Err(_) =>
      case Ok(lines) =>
        var r1 := Interpretation(s1[1..], numText);
        var r2 := Interpretation(s2, numText);
        assert lines + (r1.output + r2.output) == (lines + r1.output) + r2.output;
    }
  }

  /**
   * The interpreter, writing to a console. Python's rendering of a float
   * (`str(3.0)` is "3.0") is the parameter `numText`.
   */
  class Interpreter {
    const numText: real -> string
    /** The lines printed so far. */
    var console: seq<string>

    constructor (numText: real -> string)
      ensures this.numText == numText && console == []
    {
      this.numText := numText;
      console := [];
    }

    /** `execute`: runs one statement, appending what it prints, and gives the exception it raises. */
    method ExecuteStatement(s: Stmt) returns (fault: Option<Fault>)
      modifies this`console
      ensures Execute(s, numText).Ok? ==> fault == None && console == old(console) + Execute(s, numText).value
      ensures Execute(s, numText).Err? ==> fault == Some(Execute(s, numText).error) && console == old(console)
    {
      var v := Evaluate(s.expression);
      if v.Err? {
        return Some(v.error);
      }
      if s.PrintStmt? {
        console := console + [Render(v.value, numText)];
      }
      return None;
    }

    /**
     * `interpret`: runs the statements in order; at the first runtime
     * error it prints the error's line and returns true, running nothing
     * after it; an internal exception escapes.
     */
    method Interpret(statements: seq<Stmt>) returns (outcome: Outcome)
      modifies this`console
      ensures var run := Interpretation(statements, numText);
              outcome == run.outcome && console == old(console) + run.output
    {
      ghost var written: seq<string> := [];
      for i := 0 to |statements|
        invariant console == old(console) + written
        invariant var rest := Interpretation(statements[i..], numText);
                  Interpretation(statements, numText) == Run(rest.outcome, written + rest.output)
      {
        assert statements[i..][0] == statements[i];
        assert statements[i..][1..] == statements[i + 1..];
        var fault := ExecuteStatement(statements[i]);
        if fault == Some(InternalFault) {
          return Escaped;
        }
        if fault.Some? {
          console := console + [RuntimeErrorText(fault.value.error)];
          return Returned(true);
        }
        var rest := Interpretation(statements[i + 1..], numText);
        AppendAssoc(written, Execute(statements[i], numText).value, rest.output);
        written := written + Execute(statements[i], numText).value;
      }
      assert statements[|statements|..] == [];
      return Returned(false);
    }
  }
}

=== FILE: parser.dfy ===
/**
 * The recursive-descent expression parser (Parser.py).
 *
 * The pure functions below say what each grammar rule does when it starts
 * at token position `pos`: the tree it builds and the position after it,
 * or the position of the token it reports a parse error at, with the
 * message. The class `Parser` is the cursor-driven implementation, one
 * method per method of the source, proved against them.
 *
 *   expression -> equality
 *   equality   -> comparison ( "!=" comparison )*   (BANG_EQUAL listed twice; `==` is never taken)
 *   comparison -> term ( ( ">" | ">=" | "<" | "<=" ) term )*
 *   term       -> factor ( ( "-" | "+" ) factor )*
 *   factor     -> unary ( ( "/" | "*" ) unary )*
 *   unary      -> ( "!" | "-" ) unary | primary
 *   primary    -> "false" | "true" | "nil" | NUMBER | STRING | "(" expression ")"
 */
module Parsing {
  import opened Results
  import opened Tokens
  import opened Errors
  import opened Syntax

  /** What the parser needs of its token list: it is not empty and ends with the end-of-input token. */
  predicate WellFormed(ts: seq<Token>)
  {
    |ts| > 0 && ts[|ts| - 1].kind == Eof
  }

  /** The kinds each binary level matches, in the order the source lists them. */
  const EqualityOps: seq<TokenKind> := [BangEqual, BangEqual]
  const ComparisonOps: seq<TokenKind> := [Greater, GreaterEqual, Less, LessEqual]
  const TermOps: seq<TokenKind> := [Minus, Plus]
  const FactorOps: seq<TokenKind> := [Slash, Star]
  const UnaryOps: seq<TokenKind> := [Bang, Minus]

  /** The binary levels, numbered from the loosest: equality 5, comparison 4, term 3, factor 2. */
  function LevelOps(level: nat): seq<TokenKind>
    requires 2 <= level <= 5
  {
    if level == 5 then EqualityOps
    else if level == 4 then ComparisonOps
    else if level == 3 then TermOps
    else FactorOps
  }

  /** `match(*kinds)` at `pos` succeeds: the token there is not the end and has one of the kinds. */
  predicate MatchesAt(ts: seq<Token>, pos: nat, kinds: seq<TokenKind>)
    requires pos < |ts|
  {
    ts[pos].kind != Eof && ts[pos].kind in kinds
  }

  /**
   * The value a NUMBER or STRING token's literal becomes in a Literal node:
   * never a Boolean, of the literal's own sort, and carrying its payload, so
   * different literals give different values.
   */
  function LiteralValue(literal: TokenLiteral): (v: Value)
    ensures !v.Bool?
    ensures v.Num? <==> literal.NumberLiteral?
    ensures v.Str? <==> literal.StringLiteral?
    ensures v.Num? ==> v.x == literal.x
    ensures v.Str? ==> v.s == literal.s
  {
    match literal
    case NoLiteral => Value.Nil
    case StringLiteral(s) => Str(s)
    case NumberLiteral(x) => Num(x)
  }

  /** The outcome of one grammar rule: a tree and the position after it, or a parse error. */
  datatype PResult =
    | POk(expr: Expr, next: nat)
    | PErr(at: nat, message: string)

  /** A rule that starts at `pos` and ends at a position after it, never consuming the end token. */
  predicate Progress(ts: seq<Token>, pos: nat, r: PResult)
  {
    match r
    case POk(_, next) => pos < next < |ts|
    case PErr(at, _) => pos <= at < |ts|
  }

  /** `expression`. */
  function PExpression(ts: seq<Token>, pos: nat): (r: PResult)
    requires WellFormed(ts) && pos < |ts|
    ensures Progress(ts, pos, r)
    decreases |ts| - pos, 6
  {
    PBinary(ts, pos, 5)
  }

  /** The operand of a binary level: the next tighter level, or `unary` below `factor`. */
  function POperand(ts: seq<Token>, pos: nat, level: nat): (r: PResult)
    requires WellFormed(ts) && pos < |ts| && 2 <= level <= 5
    ensures Progress(ts, pos, r)
    decreases |ts| - pos, level, 0
  {
    if level == 2 then PUnary(ts, pos) else PBinary(ts, pos, level - 1)
  }

  /** `equality`, `comparison`, `term` or `factor`: an operand, then the loop over operators of the level. */
  function PBinary(ts: seq<Token>, pos: nat, level: nat): (r: PResult)
    requires WellFormed(ts) && pos < |ts| && 2 <= level <= 5
    ensures Progress(ts, pos, r)
    decreases |ts| - pos, level, 1
  {
    match POperand(ts, pos, level)
    case PErr(at, message) => PErr(at, message)
    case POk(left, next) => PTail(ts, left, next, level)
  }

  /**
   * The loop of a binary level, entered with the tree `left` built so far:
   * while the token at `pos` is an operator of the level, take it and the
   * next operand, and make `Binary(left, operator, operand)` the new left.
   */
  function PTail(ts: seq<Token>, left: Expr, pos: nat, level: nat): (r: PResult)
    requires WellFormed(ts) && pos < |ts| && 2 <= level <= 5
    ensures match r
            case POk(e, next) => pos <= next < |ts|
            case PErr(at, _) => pos < at < |ts|
    decreases |ts| - pos, level, 0
  {
    if MatchesAt(ts, pos, LevelOps(level)) then
      match POperand(ts, pos + 1, level)
      case PErr(at, message) => PErr(at, message)
      case POk(right, next) => PTail(ts, Binary(left, ts[pos], right), next, level)
    else
      POk(left, pos)
  }

  /** `unary`: a prefix `!` or `-` applied to a unary, or else a primary. */
  function PUnary(ts: seq<Token>, pos: nat): (r: PResult)
    requires WellFormed(ts) && pos < |ts|
    ensures Progress(ts, pos, r)
    decreases |ts| - pos, 1
  {
    if MatchesAt(ts, pos, UnaryOps) then
      match PUnary(ts, pos + 1)
      case PErr(at, message) => PErr(at, message)
      case POk(right, next) => POk(Unary(ts[pos], right), next)
    else
      PPrimary(ts, pos)
  }

  /**
   * The Literal node `primary` builds for a `false`, `true` or `nil`
   * keyword or a NUMBER or STRING token, and None for any other token.
   */
  function LiteralOf(t: Token): (r: Option<Expr>)
    ensures r.Some? <==> t.kind in {False, True, TokenKind.Nil, Number, String}
  {
    match t.kind
    case False => Some(Literal(Bool(false)))
    case True => Some(Literal(Bool(true)))
    case Nil => Some(Literal(Value.Nil))
    case Number => Some(Literal(LiteralValue(t.literal)))
    case String => Some(Literal(LiteralValue(t.literal)))
    case _ => None
  }

  /** `primary`: a literal, or a parenthesised expression, or else the error "Expected expression.". */
  function PPrimary(ts: seq<Token>, pos: nat): (r: PResult)
    requires WellFormed(ts) && pos < |ts|
    ensures Progress(ts, pos, r)
    decreases |ts| - pos, 0
  {
    var kind := ts[pos].kind;
    if LiteralOf(ts[pos]).Some? then POk(LiteralOf(ts[pos]).value, pos + 1)
    else if kind == LeftParen then
      match PExpression(ts, pos + 1)
      case PErr(at, message) => PErr(at, message)
      case POk(inner, next) =>
        if ts[next].kind == RightParen then POk(Grouping(inner), next + 1)
        else PErr(next, "Expected ')' after expression")
    else PErr(pos, "Expected expression.")
  }

  /** The kinds at which `synchronise` stops: the starts of declarations and statements. */
  const StatementStarts: seq<TokenKind> := [Class, Fun, Var, For, If, While, Print, Return]

  /** Where the scan of `synchronise` from `p` stops: the first end token or statement start. */
  function SyncFrom(ts: seq<Token>, p: nat): (r: nat)
    requires WellFormed(ts) && p < |ts|
    ensures p <= r < |ts|
    ensures ts[r].kind == Eof || ts[r].kind in StatementStarts
    ensures forall k :: p <= k < r ==> ts[k].kind != Eof && ts[k].kind !in StatementStarts
    decreases |ts| - p
  {
    if ts[p].kind == Eof || ts[p].kind in StatementStarts then p else SyncFrom(ts, p + 1)
  }

  /** One round of a binary level's loop: an operator of the level followed by an operand that parses. */
  lemma TailTakes(ts: seq<Token>, left: Expr, pos: nat, level: nat, right: Expr, next: nat)
    requires WellFormed(ts) && pos < |ts| && 2 <= level <= 5
    requires MatchesAt(ts, pos, LevelOps(level))
    requires level == 2 ==> PUnary(ts, pos + 1) == POk(right, next)
    requires level > 2 ==> PBinary(ts, pos + 1, level - 1) == POk(right, next)
    ensures PTail(ts, left, pos, level) == PTail(ts, Binary(left, ts[pos], right), next, level)
  {
  }

  /** The exception `ParseError`. */
  datatype ParseError = ParseError

  class Parser {
    const tokens: seq<Token>
    /** The index of the token to be parsed next. */
    var current: nat
    /** The parse-error lines the parser has printed. */
    var reported: seq<string>

    ghost predicate Valid()
      reads this
    {
      WellFormed(tokens) && current < |tokens|
    }

    constructor (tokens: seq<Token>)
      requires WellFormed(tokens)
      ensures Valid()
      ensures this.tokens == tokens && current == 0 && reported == []
    {
      this.tokens := tokens;
      current := 0;
      reported := [];
    }

    /** The token to be parsed next. */
    function Peek(): (t: Token)
      requires Valid()
      reads this
      ensures t == tokens[current]
      ensures t.kind != Eof ==> current < |tokens| - 1
    {
      tokens[current]
    }

    /**
     * The token before the cursor; with the cursor at 0, Python's index -1
     * gives the last token.
     */
    function Previous(): (t: Token)
      requires Valid()
      reads this
      ensures current > 0 ==> t == tokens[current - 1]
      ensures current == 0 ==> t == tokens[|tokens| - 1] && t.kind == Eof
    {
      if current == 0 then tokens[|tokens| - 1] else tokens[current - 1]
    }

    /** The cursor is at an end-of-input token. */
    predicate AtEnd()
      requires Valid()
      reads this
      ensures current == |tokens| - 1 ==> AtEnd()
    {
      Peek().kind == Eof
    }

    /** The token to be parsed next has the given kind and is not the end. */
    predicate Check(kind: TokenKind)
      requires Valid()
      reads this
      ensures Check(kind) <==> MatchesAt(tokens, current, [kind])
      ensures Check(kind) ==> kind != Eof
    {
      if AtEnd() then false else Peek().kind == kind
    }

    /** Moves past the current token unless it is the end, and returns the token before the cursor. */
    method Advance() returns (t: Token)
      requires Valid()
      modifies this`current
      ensures Valid()
      ensures current == if old(AtEnd()) then old(current) else old(current) + 1
      ensures t == Previous()
      ensures !old(AtEnd()) ==> t == tokens[old(current)]
    {
      if !AtEnd() {
        current := current + 1;
      }
      return Previous();
    }

    /**
     * `match(*kinds)`: consumes the current token exactly when it is not the
     * end and has one of the kinds.
     */
    method Match(kinds: seq<TokenKind>) returns (matched: bool)
      requires Valid()
      modifies this`current
      ensures Valid()
      ensures matched <==> MatchesAt(tokens, old(current), kinds)
      ensures current == if matched then old(current) + 1 else old(current)
    {
      for i := 0 to |kinds|
        invariant current == old(current)
        invariant forall j :: 0 <= j < i ==> !Check(kinds[j])
      {
        if Check(kinds[i]) {
          var _ := Advance();
          return true;
        }
      }
      return false;
    }

    /** `error(token, message)`: prints the parse-error line and gives the exception to raise. */
    method Error(token: Token, message: string) returns (e: ParseError)
      modifies this`reported
      ensures reported == old(reported) + [ParseErrorText(token, message)]
    {
      reported := reported + [ParseErrorText(token, message)];
      return ParseError;
    }

    /**
     * `consume(kind, message)`: takes the current token if it has the kind;
     * otherwise reports the message at it and fails without moving.
     */
    method Consume(kind: TokenKind, message: string) returns (r: Result<Token, ParseError>)
      requires Valid()
      modifies this`current, this`reported
      ensures Valid()
      ensures old(Check(kind)) ==>
                && r == Ok(tokens[old(current)])
                && current == old(current) + 1
                && reported == old(reported)
      ensures !old(Check(kind)) ==>
                && r.Err?
                && current == old(current)
                && reported == old(reported) + [ParseErrorText(tokens[current], message)]
    {
      if Check(kind) {
        var t := Advance();
        return Ok(t);
      }
      var e := Error(Peek(), message);
      return Err(e);
    }

    /**
     * `synchronise`: skips the current token, then every token up to the
     * next end token or statement start.
     */
    method Synchronise()
      requires Valid()
      modifies this`current
      ensures Valid()
      ensures current == SyncFrom(tokens, if old(AtEnd()) then old(current) else old(current) + 1)
    {
      var _ := Advance();
      ghost var from := current;
      while !AtEnd()
        invariant Valid() && from <= current
        invariant SyncFrom(tokens, current) == SyncFrom(tokens, from)
        decreases |tokens| - current
      {
        if Peek().kind in StatementStarts {
          return;
        }
        var _ := Advance();
      }
    }

    /** The method's outcome is the rule's: its tree and position, or one report at the error token. */
    ghost predicate Agrees(r: Result<Expr, ParseError>, spec: PResult, before: seq<string>)
      reads this
    {
      match spec
      case POk(e, next) => r == Ok(e) && current == next && reported == before
      case PErr(at, message) =>
        && r.Err? && current == at && at < |tokens|
        && reported == before + [ParseErrorText(tokens[at], message)]
    }

    method Expression() returns (r: Result<Expr, ParseError>)
      requires Valid()
      modifies this`current, this`reported
      ensures Valid()
      ensures Agrees(r, PExpression(tokens, old(current)), old(reported))
      decreases |tokens| - current, 7
    {
      r := Equality();
    }

    method Equality() returns (r: Result<Expr, ParseError>)
      requires Valid()
      modifies this`current, this`reported
      ensures Valid()
      ensures Agrees(r, PBinary(tokens, old(current), 5), old(reported))
      decreases |tokens| - current, 6
    {
      r := Comparison();
      if r.Err? {
        return;
      }
      var expr := r.value;
      while true
        invariant Valid() && old(current) < current && reported == old(reported)
        invariant PTail(tokens, expr, current, 5) == PBinary(tokens, old(current), 5)
        decreases |tokens| - current
      {
        ghost var mark := current;
        var matched := Match(EqualityOps);
        if !matched {
          return Ok(expr);
        }
        var operator := Previous();
        assert operator == tokens[mark];
        var right := Comparison();
        if right.Err? {
          return right;
        }
        TailTakes(tokens, expr, mark, 5, right.value, current);
        expr := Binary(expr, operator, right.value);
      }
    }

    method Comparison() returns (r: Result<Expr, ParseError>)
      requires Valid()
      modifies this`current, this`reported
      ensures Valid()
      ensures Agrees(r, PBinary(tokens, old(current), 4), old(reported))
      decreases |tokens| - current, 5
    {
      r := Term();
      if r.Err? {
        return;
      }
      var expr := r.value;
      while true
        invariant Valid() && old(current) < current && reported == old(reported)
        invariant PTail(tokens, expr, current, 4) == PBinary(tokens, old(current), 4)
        decreases |tokens| - current
      {
        ghost var mark := current;
        var matched := Match(ComparisonOps);
        if !matched {
          return Ok(expr);
        }
        var operator := Previous();
        assert operator == tokens[mark];
        var right := Term();
        if right.Err? {
          return right;
        }
        TailTakes(tokens, expr, mark, 4, right.value, current);
        expr := Binary(expr, operator, right.value);
      }
    }

    method Term() returns (r: Result<Expr, ParseError>)
      requires Valid()
      modifies this`current, this`reported
      ensures Valid()
      ensures Agrees(r, PBinary(tokens, old(current), 3), old(reported))
      decreases |tokens| - current, 4
    {
      r := Factor();
      if r.Err? {
        return;
      }
      var expr := r.value;
      while true
        invariant Valid() && old(current) < current && reported == old(reported)
        invariant PTail(tokens, expr, current, 3) == PBinary(tokens, old(current), 3)
        decreases |tokens| - current
      {
        ghost var mark := current;
        var matched := Match(TermOps);
        if !matched {
          return Ok(expr);
        }
        var operator := Previous();
        assert operator == tokens[mark];
        var right := Factor();
        if right.Err? {
          return right;
        }
        TailTakes(tokens, expr, mark, 3, right.value, current);
        expr := Binary(expr, operator, right.value);
      }
    }

    method Factor() returns (r: Result<Expr, ParseError>)
      requires Valid()
      modifies this`current, this`reported
      ensures Valid()
      ensures Agrees(r, PBinary(tokens, old(current), 2), old(reported))
      decreases |tokens| - current, 3
    {
      r := Unary();
      if r.Err? {
        return;
      }
      var expr := r.value;
      while true
        invariant Valid() && old(current) < current && reported == old(reported)
        invariant PTail(tokens, expr, current, 2) == PBinary(tokens, old(current), 2)
        decreases |tokens| - current
      {
        ghost var mark := current;
        var matched := Match(FactorOps);
        if !matched {
          return Ok(expr);
        }
        var operator := Previous();
        assert operator == tokens[mark];
        var right := Unary();
        if right.Err? {
          return right;
        }
        TailTakes(tokens, expr, mark, 2, right.value, current);
        expr := Binary(expr, operator, right.value);
      }
    }

    method Unary() returns (r: Result<Expr, ParseError>)
      requires Valid()
      modifies this`current, this`reported
      ensures Valid()
      ensures Agrees(r, PUnary(tokens, old(current)), old(reported))
      decreases |tokens| - current, 2
    {
      var matched := Match(UnaryOps);
      if matched {
        var operator := Previous();
        var right := Unary();
        if right.Err? {
          return right;
        }
        return Ok(Expr.Unary(operator, right.value));
      }
      r := Primary();
    }

    method Primary() returns (r: Result<Expr, ParseError>)
      requires Valid()
      modifies this`current, this`reported
      ensures Valid()
      ensures Agrees(r, PPrimary(tokens, old(current)), old(reported))
      decreases |tokens| - current, 1
    {
      var matched := Match([False]);
      if matched {
        r := Ok(Literal(Bool(false)));
      } else {
        matched := Match([True]);
        if matched {
          r := Ok(Literal(Bool(true)));
        } else {
          matched := Match([TokenKind.Nil]);
          if matched {
            r := Ok(Literal(Value.Nil));
          } else {
            matched := Match([Number, String]);
            if matched {
              r := Ok(Literal(LiteralValue(Previous().literal)));
            } else {
              r := GroupingOrError();
            }
          }
        }
      }
    }

    /**
     * The last two branches of `primary`, once no literal has matched: a
     * parenthesised expression closed by `)`, or else the error
     * "Expected expression." at the current token.
     */
    method GroupingOrError() returns (r: Result<Expr, ParseError>)
      requires Valid()
      requires LiteralOf(tokens[current]).None?
      modifies this`current, this`reported
      ensures Valid()
      ensures Agrees(r, PPrimary(tokens, old(current)), old(reported))
      decreases |tokens| - current, 0
    {
      var matched := Match([LeftParen]);
      if matched {
        ghost var inner := PExpression(tokens, old(current) + 1);
        assert PPrimary(tokens, old(current)) == match inner
          case PErr(at, message) => PErr(at, message)
          case POk(e, next) =>
            if tokens[next].kind == RightParen then POk(Grouping(e), next + 1)
            else PErr(next, "Expected ')' after expression");
        r := Expression();
        if r.Err? {
          return;
        }
        var closing := Consume(RightParen, "Expected ')' after expression");
        if closing.Err? {
          return Err(closing.error);
        }
        return Ok(Grouping(r.value));
      }
      assert PPrimary(tokens, old(current)) == PErr(old(current), "Expected expression.");
      var e := Error(Peek(), "Expected expression.");
      return Err(e);
    }

    /**
     * `parse`: `(False, tree)` when the expression parses, and `(True, Expr())`
     * after a parse error, the bare `Expr()` modelled as `None`.
     */
    method Parse() returns (hadError: bool, tree: Option<Expr>)
      requires Valid()
      modifies this`current, this`reported
      ensures Valid()
      ensures var spec := PExpression(tokens, old(current));
              && (hadError <==> spec.PErr?)
              && (spec.POk? ==> tree == Some(spec.expr) && current == spec.next && reported == old(reported))
              && (spec.PErr? ==>
                    && tree == None && current == spec.at
                    && reported == old(reported) + [ParseErrorText(tokens[spec.at], spec.message)])
    {
      var r := Expression();
      if r.Err? {
        return true, None;
      }
      return false, Some(r.value);
    }
  }
}

=== FILE: parser_properties.dfy ===
/**
 * What the parser promises about the trees it builds: precedence and left
 * associativity, right-recursive prefix operators, the error at a token
 * that cannot start an expression, and `==` never being taken.
 */
module ParsingProperties {
  import opened Tokens
  import opened Syntax
  import opened Parsing
  import opened Sequences
  import opened TokenSpans

  /** The binary level an operator kind belongs to, or 0 for a kind that is no binary operator. */
  function OpLevel(kind: TokenKind): (level: nat)
    ensures level == 0 || 2 <= level <= 5
    ensures 2 <= level <= 5 ==> kind in LevelOps(level)
    ensures kind in EqualityOps ==> level == 5
    ensures kind in ComparisonOps ==> level == 4
    ensures kind in TermOps ==> level == 3
    ensures kind in FactorOps ==> level == 2
  {
    if kind in EqualityOps then 5
    else if kind in ComparisonOps then 4
    else if kind in TermOps then 3
    else if kind in FactorOps then 2
    else 0
  }

  /**
   * Trees the parser can build from `level` down: a binary node's operator
   * belongs to a level no looser than `level`, its left operand is of that
   * level and its right operand of a strictly tighter one (so chains nest
   * to the left, and tighter operators sit lower in the tree); a unary
   * node holds `!` or `-` over a unary or primary tree; a grouping may hold
   * any expression.
   */
  predicate Prec(e: Expr, level: nat)
  {
    match e
    case Literal(_) => true
    case Grouping(inner) => Prec(inner, 5)
    case Unary(op, right) => level >= 1 && op.kind in UnaryOps && Prec(right, 1)
    case Binary(left, op, right) =>
      var k := OpLevel(op.kind);
      2 <= k <= level && Prec(left, k) && Prec(right, k - 1)
  }

  /** The token after a tree of `level` is no binary operator of that level or a tighter one. */
  predicate StopsBefore(ts: seq<Token>, r: PResult, level: nat)
  {
    r.POk? ==> r.next < |ts| && !(2 <= OpLevel(ts[r.next].kind) <= level)
  }

  /**
   * A parse error is one of the two the grammar raises: "Expected
   * expression." at a token that cannot start a primary, or "Expected ')'
   * after expression" at a token that is not `)`.
   */
  predicate ErrorAt(ts: seq<Token>, r: PResult)
  {
    r.PErr? ==>
      && r.at < |ts|
      && (|| (r.message == "Expected expression." && LiteralOf(ts[r.at]).None?
              && ts[r.at].kind != LeftParen && !MatchesAt(ts, r.at, UnaryOps))
          || (r.message == "Expected ')' after expression" && ts[r.at].kind != RightParen))
  }

  /**
   * Every tree `expression` builds respects precedence and left
   * associativity, and parsing stops at a token that is no operator the
   * grammar takes.
   */
  lemma ExpressionShape(ts: seq<Token>, pos: nat)
    requires WellFormed(ts) && pos < |ts|
    ensures var r := PExpression(ts, pos);
            (r.POk? ==> Prec(r.expr, 5) && OpLevel(ts[r.next].kind) == 0) && ErrorAt(ts, r)
    decreases |ts| - pos, 6
  {
    BinaryShape(ts, pos, 5);
  }

  lemma OperandShape(ts: seq<Token>, pos: nat, level: nat)
    requires WellFormed(ts) && pos < |ts| && 2 <= level <= 5
    ensures var r := POperand(ts, pos, level);
            (r.POk? ==> Prec(r.expr, level - 1)) && StopsBefore(ts, r, level - 1) && ErrorAt(ts, r)
    decreases |ts| - pos, level, 0
  {
    if level == 2 {
      UnaryShape(ts, pos);
    } else {
      BinaryShape(ts, pos, level - 1);
    }
  }

  lemma BinaryShape(ts: seq<Token>, pos: nat, level: nat)
    requires WellFormed(ts) && pos < |ts| && 2 <= level <= 5
    ensures var r := PBinary(ts, pos, level);
            (r.POk? ==> Prec(r.expr, level)) && StopsBefore(ts, r, level) && ErrorAt(ts, r)
    decreases |ts| - pos, level, 1
  {
    OperandShape(ts, pos, level);
    match POperand(ts, pos, level)
    case PErr(_, _) =>
    case POk(left, next) => TailShape(ts, left, next, level);
  }

  lemma TailShape(ts: seq<Token>, left: Expr, pos: nat, level: nat)
    requires WellFormed(ts) && pos < |ts| && 2 <= level <= 5
    requires Prec(left, level) && !(2 <= OpLevel(ts[pos].kind) < level)
    ensures var r := PTail(ts, left, pos, level);
            (r.POk? ==> Prec(r.expr, level)) && StopsBefore(ts, r, level) && ErrorAt(ts, r)
    decreases |ts| - pos, level, 0
  {
    if MatchesAt(ts, pos, LevelOps(level)) {
      OperandShape(ts, pos + 1, level);
      match POperand(ts, pos + 1, level)
      case PErr(_, _) =>
      case POk(right, next) => TailShape(ts, Binary(left, ts[pos], right), next, level);
    }
  }

  lemma UnaryShape(ts: seq<Token>, pos: nat)
    requires WellFormed(ts) && pos < |ts|
    ensures var r := PUnary(ts, pos);
            (r.POk? ==> Prec(r.expr, 1)) && StopsBefore(ts, r, 1) && ErrorAt(ts, r)
    decreases |ts| - pos, 1
  {
    if MatchesAt(ts, pos, UnaryOps) {
      UnaryShape(ts, pos + 1);
    } else {
      PrimaryShape(ts, pos);
    }
  }

  lemma PrimaryShape(ts: seq<Token>, pos: nat)
    requires WellFormed(ts) && pos < |ts| && !MatchesAt(ts, pos, UnaryOps)
    ensures var r := PPrimary(ts, pos);
            (r.POk? ==> Prec(r.expr, 0)) && ErrorAt(ts, r)
    decreases |ts| - pos, 0
  {
    if ts[pos].kind == LeftParen {
      ExpressionShape(ts, pos + 1);
    }
  }

  /**
   * A unary-level tree followed by a token that is no operator of `level`
   * or a tighter one is the whole of the binary levels up to `level`: no
   * loop takes another operand.
   */
  lemma {:induction false} UnaryPassesUp(ts: seq<Token>, pos: nat, level: nat, e: Expr, next: nat)
    requires WellFormed(ts) && pos < |ts| && 2 <= level <= 5
    requires PUnary(ts, pos) == POk(e, next)
    requires !(2 <= OpLevel(ts[next].kind) <= level)
    ensures PBinary(ts, pos, level) == POk(e, next)
    decreases level
  {
    if level > 2 {
      UnaryPassesUp(ts, pos, level - 1, e, next);
    }
  }

  /** A parse error in the unary operand at `pos` is the error of every binary level starting there. */
  lemma {:induction false} UnaryErrorPropagates(ts: seq<Token>, pos: nat, level: nat)
    requires WellFormed(ts) && pos < |ts| && 2 <= level <= 5
    requires PUnary(ts, pos).PErr?
    ensures PBinary(ts, pos, level) == PUnary(ts, pos)
    decreases level
  {
    if level > 2 {
      UnaryErrorPropagates(ts, pos, level - 1);
    }
  }

  /**
   * A token that cannot start an expression (no literal, no `(`, no prefix
   * operator: an identifier, for one) raises "Expected expression." at
   * that very token.
   */
  lemma CannotStartExpression(ts: seq<Token>, pos: nat)
    requires WellFormed(ts) && pos < |ts|
    requires LiteralOf(ts[pos]).None? && ts[pos].kind != LeftParen && !MatchesAt(ts, pos, UnaryOps)
    ensures PExpression(ts, pos) == PErr(pos, "Expected expression.")
  {
    UnaryErrorPropagates(ts, pos, 5);
  }

  /**
   * `==` is never consumed: an operand followed by `==` is the whole
   * expression, and parsing stops at the `==` token.
   */
  lemma EqualEqualStops(ts: seq<Token>, pos: nat, e: Expr, next: nat)
    requires WellFormed(ts) && pos < |ts|
    requires PUnary(ts, pos) == POk(e, next) && ts[next].kind == EqualEqual
    ensures PExpression(ts, pos) == POk(e, next)
  {
    UnaryPassesUp(ts, pos, 5, e, next);
  }

  /** The binary operators a tree holds anywhere. */
  function BinaryOperators(e: Expr): (r: set<TokenKind>)
    ensures e.Literal? ==> r == {}
  {
    match e
    case Literal(_) => {}
    case Grouping(inner) => BinaryOperators(inner)
    case Unary(_, right) => BinaryOperators(right)
    case Binary(left, op, right) => {op.kind} + BinaryOperators(left) + BinaryOperators(right)
  }

  /** Every binary operator of a tree the grammar admits belongs to one of the four levels. */
  lemma {:induction false} PrecOperators(e: Expr, level: nat)
    requires Prec(e, level)
    ensures forall k :: k in BinaryOperators(e) ==> 2 <= OpLevel(k) <= 5
    ensures EqualEqual !in BinaryOperators(e)
  {
    match e
    case Literal(_) =>
    case Grouping(inner) => PrecOperators(inner, 5);
    case Unary(_, right) => PrecOperators(right, 1);
    case Binary(left, op, right) =>
      PrecOperators(left, OpLevel(op.kind));
      PrecOperators(right, OpLevel(op.kind) - 1);
  }

  /** No tree `expression` builds holds `==`. */
  lemma NoEqualEqualTree(ts: seq<Token>, pos: nat)
    requires WellFormed(ts) && pos < |ts|
    ensures PExpression(ts, pos).POk? ==> EqualEqual !in BinaryOperators(PExpression(ts, pos).expr)
  {
    ExpressionShape(ts, pos);
    if PExpression(ts, pos).POk? {
      PrecOperators(PExpression(ts, pos).expr, 5);
    }
  }

  /** A literal token as an operand: `primary` takes just that token. */
  lemma LiteralPrimary(ts: seq<Token>, pos: nat)
    requires WellFormed(ts) && pos < |ts| && LiteralOf(ts[pos]).Some?
    ensures PPrimary(ts, pos) == POk(LiteralOf(ts[pos]).value, pos + 1)
  {
  }

  /**
   * Left associativity: `a - b - c` over literal tokens, followed by a
   * token that is no binary operator, parses as `(a - b) - c`.
   */
  lemma LeftNested(ts: seq<Token>, pos: nat)
    requires WellFormed(ts) && pos + 5 < |ts|
    requires LiteralOf(ts[pos]).Some? && LiteralOf(ts[pos + 2]).Some? && LiteralOf(ts[pos + 4]).Some?
    requires ts[pos + 1].kind == Minus && ts[pos + 3].kind == Minus
    requires OpLevel(ts[pos + 5].kind) == 0
    ensures PExpression(ts, pos) == POk(
              Binary(Binary(LiteralOf(ts[pos]).value, ts[pos + 1], LiteralOf(ts[pos + 2]).value),
                     ts[pos + 3], LiteralOf(ts[pos + 4]).value),
              pos + 5)
  {
    var a, b, c := LiteralOf(ts[pos]).value, LiteralOf(ts[pos + 2]).value, LiteralOf(ts[pos + 4]).value;
    LiteralPrimary(ts, pos);
    LiteralPrimary(ts, pos + 2);
    LiteralPrimary(ts, pos + 4);
    UnaryPassesUp(ts, pos, 2, a, pos + 1);
    UnaryPassesUp(ts, pos + 2, 2, b, pos + 3);
    UnaryPassesUp(ts, pos + 4, 2, c, pos + 5);
    var ab := Binary(a, ts[pos + 1], b);
    var abc := Binary(ab, ts[pos + 3], c);
    TailTakes(ts, a, pos + 1, 3, b, pos + 3);
    TailTakes(ts, ab, pos + 3, 3, c, pos + 5);
    assert PBinary(ts, pos, 3) == POk(abc, pos + 5);
    assert PBinary(ts, pos, 4) == POk(abc, pos + 5);
    assert PBinary(ts, pos, 5) == POk(abc, pos + 5);
  }

  /**
   * Precedence: in `a + b * c` over literal tokens, followed by a token that
   * is no binary operator, `*` binds tighter: the tree is `a + (b * c)`.
   */
  lemma FactorBindsTighter(ts: seq<Token>, pos: nat)
    requires WellFormed(ts) && pos + 5 < |ts|
    requires LiteralOf(ts[pos]).Some? && LiteralOf(ts[pos + 2]).Some? && LiteralOf(ts[pos + 4]).Some?
    requires ts[pos + 1].kind == Plus && ts[pos + 3].kind == Star
    requires OpLevel(ts[pos + 5].kind) == 0
    ensures PExpression(ts, pos) == POk(
              Binary(LiteralOf(ts[pos]).value, ts[pos + 1],
                     Binary(LiteralOf(ts[pos + 2]).value, ts[pos + 3], LiteralOf(ts[pos + 4]).value)),
              pos + 5)
  {
    var a, b, c := LiteralOf(ts[pos]).value, LiteralOf(ts[pos + 2]).value, LiteralOf(ts[pos + 4]).value;
    LiteralPrimary(ts, pos);
    LiteralPrimary(ts, pos + 2);
    LiteralPrimary(ts, pos + 4);
    UnaryPassesUp(ts, pos, 2, a, pos + 1);
    assert PUnary(ts, pos + 2) == POk(b, pos + 3);
    assert PUnary(ts, pos + 4) == POk(c, pos + 5);
    var bc := Binary(b, ts[pos + 3], c);
    TailTakes(ts, b, pos + 3, 2, c, pos + 5);
    assert PBinary(ts, pos + 2, 2) == POk(bc, pos + 5);
    TailTakes(ts, a, pos + 1, 3, bc, pos + 5);
    assert PBinary(ts, pos, 3) == POk(Binary(a, ts[pos + 1], bc), pos + 5);
    assert PBinary(ts, pos, 4) == POk(Binary(a, ts[pos + 1], bc), pos + 5);
    assert PBinary(ts, pos, 5) == POk(Binary(a, ts[pos + 1], bc), pos + 5);
  }

  /** Prefix operators nest to the right: `- - a` is `-(-a)`. */
  lemma PrefixNestsRight(ts: seq<Token>, pos: nat)
    requires WellFormed(ts) && pos + 2 < |ts|
    requires ts[pos].kind == Minus && ts[pos + 1].kind == Minus && LiteralOf(ts[pos + 2]).Some?
    ensures PUnary(ts, pos) == POk(Unary(ts[pos], Unary(ts[pos + 1], LiteralOf(ts[pos + 2]).value)), pos + 3)
  {
    LiteralPrimary(ts, pos + 2);
    assert PUnary(ts, pos + 2) == POk(LiteralOf(ts[pos + 2]).value, pos + 3);
  }

  /**
   * The token kinds a tree was parsed from, left to right: a literal's own
   * kind, the parentheses around a grouping, and each operator between or
   * before its operands.
   */
  function Yield(e: Expr): (r: seq<TokenKind>)
    ensures |r| > 0
  {
    match e
    case Literal(v) =>
      (match v
       case Bool(b) => if b then [True] else [False]
       case Nil => [TokenKind.Nil]
       case Num(_) => [Number]
       case Str(_) => [String])
    case Grouping(inner) => [LeftParen] + Yield(inner) + [RightParen]
    case Unary(op, right) => [op.kind] + Yield(right)
    case Binary(left, op, right) => Yield(left) + [op.kind] + Yield(right)
  }

  /**
   * Every NUMBER token carries a number and every STRING token a string, as
   * the scanner makes them.
   */
  predicate TypedLiterals(ts: seq<Token>)
  {
    forall k :: 0 <= k < |ts| ==>
      (ts[k].kind == Number ==> ts[k].literal.NumberLiteral?)
      && (ts[k].kind == String ==> ts[k].literal.StringLiteral?)
  }

  /**
   * Nothing is dropped or invented: the tree `expression` builds lists
   * exactly the kinds of the tokens it consumed, in their order.
   */
  lemma ExpressionYield(ts: seq<Token>, pos: nat)
    requires WellFormed(ts) && pos < |ts| && TypedLiterals(ts)
    ensures var r := PExpression(ts, pos); r.POk? ==> Yield(r.expr) == Span(ts, pos, r.next)
    decreases |ts| - pos, 6
  {
    BinaryYield(ts, pos, 5);
  }

  lemma OperandYield(ts: seq<Token>, pos: nat, level: nat)
    requires WellFormed(ts) && pos < |ts| && 2 <= level <= 5 && TypedLiterals(ts)
    ensures var r := POperand(ts, pos, level); r.POk? ==> Yield(r.expr) == Span(ts, pos, r.next)
    decreases |ts| - pos, level, 0
  {
    if level == 2 {
      UnaryYield(ts, pos);
    } else {
      BinaryYield(ts, pos, level - 1);
    }
  }

  lemma BinaryYield(ts: seq<Token>, pos: nat, level: nat)
    requires WellFormed(ts) && pos < |ts| && 2 <= level <= 5 && TypedLiterals(ts)
    ensures var r := PBinary(ts, pos, level); r.POk? ==> Yield(r.expr) == Span(ts, pos, r.next)
    decreases |ts| - pos, level, 1
  {
    OperandYield(ts, pos, level);
    match POperand(ts, pos, level)
    case PErr(_, _) =>
    case POk(left, next) => TailYield(ts, left, pos, next, level);
  }

  /** The loop of a binary level, entered with a tree that spans `start` up to `pos`. */
  lemma TailYield(ts: seq<Token>, left: Expr, start: nat, pos: nat, level: nat)
    requires WellFormed(ts) && start <= pos < |ts| && 2 <= level <= 5 && TypedLiterals(ts)
    requires Yield(left) == Span(ts, start, pos)
    ensures var r := PTail(ts, left, pos, level); r.POk? ==> Yield(r.expr) == Span(ts, start, r.next)
    decreases |ts| - pos, level, 0
  {
    if MatchesAt(ts, pos, LevelOps(level)) {
      OperandYield(ts, pos + 1, level);
      match POperand(ts, pos + 1, level)
      case PErr(_, _) =>
      case POk(right, next) =>
        var grown := Binary(left, ts[pos], right);
        SpanFirst(ts, pos, next);
        SpanSplit(ts, start, pos, next);
        AppendAssoc(Span(ts, start, pos), [ts[pos].kind], Yield(right));
        assert Yield(grown) == Span(ts, start, next);
        assert PTail(ts, left, pos, level) == PTail(ts, grown, next, level);
        TailYield(ts, grown, start, next, level);
    }
  }

  lemma UnaryYield(ts: seq<Token>, pos: nat)
    requires WellFormed(ts) && pos < |ts| && TypedLiterals(ts)
    ensures var r := PUnary(ts, pos); r.POk? ==> Yield(r.expr) == Span(ts, pos, r.next)
    decreases |ts| - pos, 1
  {
    if MatchesAt(ts, pos, UnaryOps) {
      UnaryYield(ts, pos + 1);
      if PUnary(ts, pos + 1).POk? {
        SpanFirst(ts, pos, PUnary(ts, pos + 1).next);
      }
    } else {
      PrimaryYield(ts, pos);
    }
  }

  lemma PrimaryYield(ts: seq<Token>, pos: nat)
    requires WellFormed(ts) && pos < |ts| && TypedLiterals(ts)
    ensures var r := PPrimary(ts, pos); r.POk? ==> Yield(r.expr) == Span(ts, pos, r.next)
    decreases |ts| - pos, 0
  {
    if LiteralOf(ts[pos]).Some? {
      LiteralYield(ts[pos]);
      assert Span(ts, pos, pos + 1) == [ts[pos].kind];
    } else if ts[pos].kind == LeftParen {
      ExpressionYield(ts, pos + 1);
      var inner := PExpression(ts, pos + 1);
      if inner.POk? && ts[inner.next].kind == RightParen {
        SpanWrap(ts, pos, inner.next);
      }
    }
  }

  /** The Literal node `primary` builds for a token lists that token's kind. */
  lemma LiteralYield(t: Token)
    requires t.kind == Number ==> t.literal.NumberLiteral?
    requires t.kind == String ==> t.literal.StringLiteral?
    ensures LiteralOf(t).Some? ==> Yield(LiteralOf(t).value) == [t.kind]
  {
  }
}

=== FILE: pipeline.dfy ===
/**
 * How the components fit together: the scanner's output is what the
 * parser demands, and the trees the parser builds never reach the
 * evaluator's bare `Exception` for an unknown operator.
 */
module Pipeline {
  import opened Results
  import opened Tokens
  import opened Syntax
  import opened Scanning
  import opened ScanningProperties
  import opened Parsing
  import opened ParsingProperties
  import opened TokenSpans
  import opened Interpreting

  /**
   * Whatever tokens a scanner starts with, as long as none of them is an
   * end token, the list `scan_tokens` leaves holds exactly one end token,
   * the last one: it is a list the parser accepts.
   */
  lemma ScannedTokensParse(prior: seq<Token>, s: string, i: nat, line: nat)
    requires forall k :: 0 <= k < |prior| ==> prior[k].kind != Eof
    ensures var ts := prior + Scan(s, i, line).tokens;
            && WellFormed(ts)
            && forall k :: 0 <= k < |ts| - 1 ==> ts[k].kind != Eof
  {
    var sc := Scan(s, i, line).tokens;
    var ts := prior + sc;
    forall k | 0 <= k < |ts| - 1
      ensures ts[k].kind != Eof
    {
      if k >= |prior| {
        assert ts[k] == sc[k - |prior|];
      }
    }
  }

  /** The scanner gives every NUMBER token its number, and makes no STRING token at all. */
  lemma {:induction false} ScannedLiteralsTyped(s: string, i: nat, line: nat)
    ensures TypedLiterals(Scan(s, i, line).tokens)
    decreases |s| - i
  {
    if i < |s| {
      var st := Step(s, i, line);
      ScannedLiteralsTyped(s, st.next, st.line);
      var ts := Scan(s, i, line).tokens;
      assert ts == st.emitted + Scan(s, st.next, st.line).tokens;
      StepLiteralsTyped(s, i, line);
    }
  }

  /**
   * When the tokens of a source text parse as an expression, the tree lists
   * the kinds of exactly the tokens consumed, in their order.
   */
  lemma SourceYield(s: string)
    ensures var ts := Scan(s, 0, 1).tokens;
            var r := PExpression(ts, 0);
            r.POk? ==> Yield(r.expr) == Span(ts, 0, r.next)
  {
    ScannedTokensParse([], s, 0, 1);
    assert [] + Scan(s, 0, 1).tokens == Scan(s, 0, 1).tokens;
    ScannedLiteralsTyped(s, 0, 1);
    ExpressionYield(Scan(s, 0, 1).tokens, 0);
  }

  /** The operators of the binary levels are all ones `visit_binary_expr` knows. */
  lemma LevelOperatorKnown(op: Token, a: Value, b: Value)
    requires 2 <= OpLevel(op.kind) <= 5
    ensures EvalBinary(op, a, b) != Err(InternalFault)
  {
    assert op.kind in LevelOps(OpLevel(op.kind));
  }

  /** A tree of the grammar never makes the evaluator raise its bare `Exception`. */
  lemma {:induction false} GrammarTreesKnownOperators(e: Expr, level: nat)
    requires Prec(e, level)
    ensures Evaluate(e) != Err(InternalFault)
  {
    match e
    case Literal(_) =>
    case Grouping(inner) =>
      GrammarTreesKnownOperators(inner, 5);
    case Unary(op, right) =>
      GrammarTreesKnownOperators(right, 1);
      assert op.kind == Bang || op.kind == Minus;
    case Binary(left, op, right) =>
      GrammarTreesKnownOperators(left, OpLevel(op.kind));
      GrammarTreesKnownOperators(right, OpLevel(op.kind) - 1);
      if Evaluate(left).Ok? && Evaluate(right).Ok? {
        LevelOperatorKnown(op, Evaluate(left).value, Evaluate(right).value);
      }
  }

  /**
   * Printing a parsed expression never lets an exception escape
   * `interpret`: it returns, after one printed line or one runtime-error
   * line.
   */
  lemma ParsedPrintReturns(ts: seq<Token>, pos: nat, numText: real -> string)
    requires WellFormed(ts) && pos < |ts| && PExpression(ts, pos).POk?
    ensures var run := Interpretation([PrintStmt(PExpression(ts, pos).expr)], numText);
            run.outcome.Returned? && |run.output| == 1
  {
    var e := PExpression(ts, pos).expr;
    ExpressionShape(ts, pos);
    GrammarTreesKnownOperators(e, 5);
    assert [PrintStmt(e)][1..] == [];
  }
}

=== FILE: results.dfy ===
/** Option and Result: the model's stand-ins for `None` and for raised exceptions. */
module Results {

  datatype Option<+T> = None | Some(value: T)

  datatype Result<+T, +E> = Ok(value: T) | Err(error: E)
}

=== FILE: runtime_error.dfy ===
/** The runtime-error record and its console line (RuntimeError.py). */
module RuntimeErrors {
  import opened Chars
  import opened Results
  import opened Tokens
  import opened Errors

  /** `LoxRuntimeError(token, message)`: the offending token and the message. */
  datatype LoxRuntimeError = LoxRuntimeError(token: Token, message: string)

  /**
   * The line `[line <token line>] <message>` that `runtime_error` prints:
   * its tag reads back as the token's line, it ends with the message, and
   * nothing else lies between the two.
   */
  function RuntimeErrorText(error: LoxRuntimeError): (r: string)
    ensures ReadLine(r) == Some(error.token.line)
    ensures EndsWith(r, "] " + error.message)
    ensures |r| == |"[line "| + |NatText(error.token.line)| + |"] " + error.message|
  {
    var t := NatText(error.token.line);
    var rest := "] " + error.message;
    TagReadsBack(t, rest);
    DecimalOfNatText(error.token.line);
    assert ("[line " + (t + rest))[|"[line " + (t + rest)| - |rest|..] == rest;
    "[line " + (t + rest)
  }
}

=== FILE: scanner.dfy ===
/**
 * The scanner (Scanner.py): a cursor over the source text that appends
 * tokens to a list and ends it with one end-of-input token.
 *
 * The pure functions `Step` and `Scan` say what one call of `scan_token`
 * and the whole `scan_tokens` loop produce; the class `Scanner` is the
 * cursor-driven implementation, proved against them.
 *
 * Two statements of the source cannot run as written and are modelled as
 * their evident intent: the newline branch assigns an unbound local
 * (`line += 1`), modelled as incrementing the scanner's line counter, and
 * the lexeme slices of `string`, `number` and `identifier` are written as
 * tuple subscripts (`source[a, b]`), modelled as the slice `source[a:b]`.
 * Everything else is kept as written, including two quirks: the branch
 * that would start a string literal is guarded by the same `"\n"` test as
 * the newline branch, so it is never taken and `"` is an unexpected
 * character; and `peek_next` answers `""` whenever a next character
 * exists, so a number never takes a fractional part.
 */
module Scanning {
  import opened Chars
  import opened Results
  import opened Tokens
  import opened Errors
  import opened Sequences

  /** The reserved words and their kinds. */
  const Keywords: map<string, TokenKind> := map[
    "and" := And,
    "class" := Class,
    "else" := Else,
    "false" := False,
    "for" := For,
    "fun" := Fun,
    "if" := If,
    "nil" := TokenKind.Nil,
    "or" := Or,
    "print" := Print,
    "return" := Return,
    "super" := Super,
    "this" := This,
    "true" := True,
    "var" := Var,
    "while" := While
  ]

  /** The kind of a one-character punctuation token, if `c` is one. */
  function SingleCharKind(c: char): Option<TokenKind>
  {
    match c
    case '(' => Some(LeftParen)
    case ')' => Some(RightParen)
    case '{' => Some(LeftBrace)
    case '}' => Some(RightBrace)
    case ',' => Some(Comma)
    case '.' => Some(Dot)
    case '-' => Some(Minus)
    case '+' => Some(Plus)
    case ';' => Some(Semicolon)
    case '*' => Some(Star)
    case _ => None
  }

  /** The kind a one-character operator takes when it is followed by `=`. */
  function WithEqual(c: char): Option<(TokenKind, TokenKind)>
  {
    match c
    case '!' => Some((BangEqual, Bang))
    case '=' => Some((EqualEqual, Equal))
    case '<' => Some((LessEqual, Less))
    case '>' => Some((GreaterEqual, Greater))
    case _ => None
  }

  /** An identifier-shaped text: a letter or `_`, then letters, digits and `_`. */
  predicate IdentifierShaped(w: string)
  {
    |w| > 0 && IsIdentStart(w[0]) && forall k :: 0 < k < |w| ==> IsIdentCont(w[k])
  }

  /**
   * The reserved words are identifier-shaped, so the identifier branch can
   * reach each of them, and none has the kind IDENTIFIER, STRING, NUMBER or
   * EOF.
   */
  lemma KeywordsAreWords()
    ensures forall w :: w in Keywords ==> IdentifierShaped(w)
    ensures forall w :: w in Keywords ==> Keywords[w] !in {Identifier, String, Number, Eof}
  {
    forall w | w in Keywords
      ensures IdentifierShaped(w)
      ensures Keywords[w] !in {Identifier, String, Number, Eof}
    {
    }
  }

  /**
   * The kind of an identifier-shaped lexeme: Identifier exactly when it is
   * no reserved word, and never a literal or end kind.
   */
  function KeywordOr(text: string): (k: TokenKind)
    ensures k == Identifier <==> text !in Keywords
    ensures text in Keywords ==> k == Keywords[text]
    ensures k !in {String, Number, Eof}
  {
    KeywordsAreWords();
    if text in Keywords then Keywords[text] else Identifier
  }

  /** Where a line comment that starts at `i` stops: the next newline, or the end. */
  function CommentEnd(s: string, i: nat): (j: nat)
    requires i <= |s|
    ensures i <= j <= |s|
    ensures j < |s| ==> s[j] == '\n'
    ensures forall k :: i <= k < j ==> s[k] != '\n'
    decreases |s| - i
  {
    if i == |s| || s[i] == '\n' then i else CommentEnd(s, i + 1)
  }

  /** The end of the maximal run of digits that starts at `i`. */
  function DigitEnd(s: string, i: nat): (j: nat)
    requires i <= |s|
    ensures i <= j <= |s|
    ensures j < |s| ==> !IsDigit(s[j])
    ensures forall k :: i <= k < j ==> IsDigit(s[k])
    decreases |s| - i
  {
    if i == |s| || !IsDigit(s[i]) then i else DigitEnd(s, i + 1)
  }

  /** The end of the maximal run of identifier characters that starts at `i`. */
  function IdentEnd(s: string, i: nat): (j: nat)
    requires i <= |s|
    ensures i <= j <= |s|
    ensures j < |s| ==> !IsIdentCont(s[j])
    ensures forall k :: i <= k < j ==> IsIdentCont(s[k])
    decreases |s| - i
  {
    if i == |s| || !IsIdentCont(s[i]) then i else IdentEnd(s, i + 1)
  }

  /** Where a string literal whose body starts at `i` stops: the next `"`, or the end. */
  function QuoteEnd(s: string, i: nat): (j: nat)
    requires i <= |s|
    ensures i <= j <= |s|
    ensures j < |s| ==> s[j] == '"'
    ensures forall k :: i <= k < j ==> s[k] != '"'
    decreases |s| - i
  {
    if i == |s| || s[i] == '"' then i else QuoteEnd(s, i + 1)
  }

  /**
   * What one call of `scan_token` does: where the cursor ends, the line
   * counter afterwards, the tokens it appends and the error lines it reports.
   */
  datatype Lexed = Lexed(next: nat, line: nat, emitted: seq<Token>, reports: seq<string>)

  /** The outcome of emitting the lexeme `s[i..j]` as one token on `line`. */
  function Emit(s: string, i: nat, j: nat, line: nat, kind: TokenKind, literal: TokenLiteral): Lexed
    requires i <= j <= |s|
  {
    Lexed(j, line, [Token(kind, s[i..j], literal, line)], [])
  }

  /** `match(expected)` at position `i`: the next character exists and is `expected`. */
  predicate NextIs(s: string, i: nat, expected: char)
  {
    i < |s| && s[i] == expected
  }

  /** One call of `scan_token` with the lexeme starting at `i` on `line`. */
  function Step(s: string, i: nat, line: nat): (r: Lexed)
    requires i < |s|
    ensures i < r.next <= |s|
    ensures |r.emitted| <= 1 && |r.reports| <= 1
    ensures |r.emitted| == 1 ==>
              && r.emitted[0].lexeme == s[i..r.next]
              && r.emitted[0].line == line
              && r.emitted[0].kind != Eof
    ensures r.line == line + (if s[i] == '\n' then 1 else 0)
  {
    var c := s[i];
    if SingleCharKind(c).Some? then
      Emit(s, i, i + 1, line, SingleCharKind(c).value, NoLiteral)
    else if WithEqual(c).Some? then
      var (long, short) := WithEqual(c).value;
      if NextIs(s, i + 1, '=') then Emit(s, i, i + 2, line, long, NoLiteral)
      else Emit(s, i, i + 1, line, short, NoLiteral)
    else if c == '/' then
      if NextIs(s, i + 1, '/') then Lexed(CommentEnd(s, i + 2), line, [], [])
      else Emit(s, i, i + 1, line, Slash, NoLiteral)
    else if c == ' ' || c == '\r' || c == '\t' then
      Lexed(i + 1, line, [], [])
    else if c == '\n' then
      Lexed(i + 1, line + 1, [], [])
    else if IsDigit(c) then
      var j := DigitEnd(s, i + 1);
      Emit(s, i, j, line, Number, NumberLiteral(DecimalValue(s[i..j]) as real))
    else if IsIdentStart(c) then
      var j := IdentEnd(s, i + 1);
      Emit(s, i, j, line, KeywordOr(s[i..j]), NoLiteral)
    else
      Lexed(i + 1, line, [], [ErrorText(line, "Unexpected character.")])
  }

  /** The tokens `scan_tokens` appends and the error lines it reports. */
  datatype Scanned = Scanned(tokens: seq<Token>, reports: seq<string>)

  /** The end-of-input token the scanner appends last. */
  function EofToken(line: nat): Token
  {
    Token(Eof, "", NoLiteral, line)
  }

  /**
   * The whole loop of `scan_tokens` from position `i` on `line`: the tokens
   * of every lexeme in order, then exactly one end-of-input token.
   */
  function Scan(s: string, i: nat, line: nat): (r: Scanned)
    ensures |r.tokens| > 0
    ensures r.tokens[|r.tokens| - 1].kind == Eof
    ensures r.tokens[|r.tokens| - 1].lexeme == ""
    ensures r.tokens[|r.tokens| - 1].literal == NoLiteral
    ensures forall k :: 0 <= k < |r.tokens| - 1 ==> r.tokens[k].kind != Eof
    ensures i <= |s| ==> r.tokens[|r.tokens| - 1].line == line + Count(s[i..], '\n')
    decreases |s| - i
  {
    if i >= |s| then
      assert i == |s| ==> s[i..] == [];
      Scanned([EofToken(line)], [])
    else
      var st := Step(s, i, line);
      var rest := Scan(s, st.next, st.line);
      StepCountsLines(s, i, line);
      CountSplit(s, i, st.next);
      Scanned(st.emitted + rest.tokens, st.reports + rest.reports)
  }

  lemma {:induction false} CountNone(t: string, c: char)
    requires forall k :: 0 <= k < |t| ==> t[k] != c
    ensures Count(t, c) == 0
  {
    if t != [] {
      CountNone(t[1..], c);
    }
  }

  /** Extending a slice by one character counts that character. */
  lemma CountExtend(s: string, i: nat, j: nat)
    requires i <= j < |s|
    ensures Count(s[i..j + 1], '\n') == Count(s[i..j], '\n') + (if s[j] == '\n' then 1 else 0)
  {
    assert s[i..j + 1] == s[i..j] + [s[j]];
    CountAppend(s[i..j], [s[j]], '\n');
  }

  lemma CountSplit(s: string, i: nat, j: nat)
    requires i <= j <= |s|
    ensures Count(s[i..], '\n') == Count(s[i..j], '\n') + Count(s[j..], '\n')
  {
    assert s[i..] == s[i..j] + s[j..];
    CountAppend(s[i..j], s[j..], '\n');
  }

  /**
   * One call of `scan_token` moves the line counter by exactly the number of
   * newlines in the text it consumed.
   */
  lemma StepCountsLines(s: string, i: nat, line: nat)
    requires i < |s|
    ensures Step(s, i, line).line == line + Count(s[i..Step(s, i, line).next], '\n')
  {
    var st := Step(s, i, line);
    var t := s[i..st.next];
    assert t == [s[i]] + s[i + 1..st.next];
    if s[i] == '\n' {
      assert st.next == i + 1;
      assert Count(t, '\n') == 1 + Count(s[i + 1..st.next], '\n');
      CountNone(s[i + 1..st.next], '\n');
    } else {
      assert forall k :: i + 1 <= k < st.next ==> s[k] != '\n';
      CountNone(t, '\n');
    }
  }

  lemma ScanUnfold(s: string, i: nat, line: nat)
    requires i < |s|
    ensures var st := Step(s, i, line);
            var rest := Scan(s, st.next, st.line);
            Scan(s, i, line) == Scanned(st.emitted + rest.tokens, st.reports + rest.reports)
  {
  }

  /**
   * Where the last lexeme that the loop of `scan_tokens` scans from `i`
   * starts: the value it leaves in the `start` field.
   */
  function LastStart(s: string, i: nat, line: nat): (r: nat)
    requires i < |s|
    ensures i <= r < |s|
    decreases |s| - i
  {
    var st := Step(s, i, line);
    if st.next < |s| then LastStart(s, st.next, st.line) else i
  }

  class Scanner {
    const source: string
    var tokens: seq<Token>
    var start: nat
    var current: nat
    var line: nat
    /** The error lines the scanner has printed. */
    var reported: seq<string>

    ghost predicate Valid()
      reads this
    {
      start <= current <= |source|
    }

    /** `Scanner(source, tokens)` with the default cursor 0 and line 1. */
    constructor (source: string, tokens: seq<Token>)
      ensures Valid()
      ensures this.source == source && this.tokens == tokens
      ensures start == 0 && current == 0 && line == 1 && reported == []
    {
      this.source := source;
      this.tokens := tokens;
      start, current, line := 0, 0, 1;
      reported := [];
    }

    /** In a valid state the scanner is at the end exactly when the cursor sits on the end of the source. */
    predicate AtEnd()
      reads this
      ensures Valid() ==> (AtEnd() <==> current == |source|)
    {
      current >= |source|
    }

    /** Consumes and returns the character under the cursor. */
    method Advance() returns (c: char)
      requires current < |source|
      modifies this`current
      ensures current == old(current) + 1
      ensures c == source[old(current)]
    {
      current := current + 1;
      c := source[current - 1];
    }

    /** Appends a token whose lexeme is `source[start..current]`, on the current line. */
    method AddToken(kind: TokenKind, literal: TokenLiteral)
      requires Valid()
      modifies this`tokens
      ensures tokens == old(tokens) + [Token(kind, source[start..current], literal, line)]
    {
      tokens := tokens + [Token(kind, source[start..current], literal, line)];
    }

    /** Consumes the next character only if it is `expected`. */
    method Match(expected: char) returns (matched: bool)
      requires current <= |source|
      modifies this`current
      ensures matched <==> NextIs(source, old(current), expected)
      ensures current == if matched then old(current) + 1 else old(current)
      ensures current <= |source|
    {
      if AtEnd() {
        return false;
      }
      if source[current] != expected {
        return false;
      }
      current := current + 1;
      return true;
    }

    /** The character under the cursor as a text of length one, or `""` at the end. */
    function Peek(): (r: string)
      reads this
      ensures |r| <= 1
      ensures r == "" <==> current >= |source|
      ensures r != "" ==> r[0] == source[current]
    {
      if AtEnd() then "" else [source[current]]
    }

    /**
     * `peek_next` as written: its test `len(source) >= current + 1` is
     * inverted. It holds whenever a character is under the cursor, and the
     * answer is then `""`; otherwise the source reads `source[current + 1]`,
     * which lies past the end and raises IndexError, None here. So the
     * answer is never a digit.
     */
    function PeekNext(): (r: Option<string>)
      reads this
      ensures r.Some? <==> current < |source|
      ensures r.Some? ==> r.value == ""
    {
      if |source| >= current + 1 then Some("") else None
    }

    /** The rest of a string literal; the opening quote has been consumed. */
    method ScanString()
      requires Valid() && start < current
      modifies this`current, this`line, this`tokens, this`reported
      ensures Valid()
      ensures var j := QuoteEnd(source, old(current));
              && line == old(line) + Count(source[old(current)..j], '\n')
              && (j == |source| ==>
                    && current == j
                    && tokens == old(tokens)
                    && reported == old(reported) + [ErrorText(line, "Unterminated string.")])
              && (j < |source| ==>
                    && current == j + 1
                    && tokens == old(tokens) + [Token(String, source[start..j + 1], StringLiteral(source[start + 1..j]), line)]
                    && reported == old(reported))
    {
      ghost var from := current;
      while Peek() != "\"" && !AtEnd()
        invariant from <= current <= QuoteEnd(source, from)
        invariant line == old(line) + Count(source[from..current], '\n')
        invariant start < current
        invariant tokens == old(tokens) && reported == old(reported)
        decreases |source| - current
      {
        if Peek() == "\n" {
          line := line + 1;
        }
        CountExtend(source, from, current);
        var _ := Advance();
      }
      assert current == QuoteEnd(source, from);
      if AtEnd() {
        reported := reported + [ErrorText(line, "Unterminated string.")];
        return;
      }
      var _ := Advance();
      AddToken(String, StringLiteral(source[start + 1..current - 1]));
    }

    /** The rest of a number literal; its first digit has been consumed. */
    method ScanNumber()
      requires Valid() && current == start + 1 && IsDigit(source[start])
      modifies this`current, this`tokens
      ensures Valid()
      ensures current == DigitEnd(source, old(current))
      ensures tokens == old(tokens) + [Token(Number, source[start..current], NumberLiteral(DecimalValue(source[start..current]) as real), line)]
    {
      while IsDigitText(Peek())
        invariant old(current) <= current <= DigitEnd(source, old(current))
        invariant AllDigits(source[start..current])
        invariant tokens == old(tokens)
        decreases |source| - current
      {
        var _ := Advance();
      }
      if Peek() == "." {
        var next := PeekNext();
        // A character is under the cursor, so `peek_next` does not raise.
        assert next.Some?;
        if IsDigitText(next.value) {
          // The fractional part: never reached, since the answer is "".
          assert false;
        }
      }
      AddToken(Number, NumberLiteral(DecimalValue(source[start..current]) as real));
    }

    /** The rest of an identifier or reserved word; its first character has been consumed. */
    method ScanIdentifier()
      requires Valid() && current == start + 1
      modifies this`current, this`tokens
      ensures Valid()
      ensures current == IdentEnd(source, old(current))
      ensures tokens == old(tokens) + [Token(KeywordOr(source[start..current]), source[start..current], NoLiteral, line)]
    {
      while IsIdentContText(Peek())
        invariant old(current) <= current <= IdentEnd(source, old(current))
        invariant tokens == old(tokens)
        decreases |source| - current
      {
        var _ := Advance();
      }
      var text := source[start..current];
      if text in Keywords {
        AddToken(Keywords[text], NoLiteral);
      } else {
        AddToken(Identifier, NoLiteral);
      }
    }

    /** The loop of the comment branch: consumes up to, not including, the next newline. */
    method SkipComment()
      requires current <= |source|
      modifies this`current
      ensures current == CommentEnd(source, old(current))
    {
      while Peek() != "\n" && !AtEnd()
        invariant old(current) <= current <= CommentEnd(source, old(current))
        decreases |source| - current
      {
        var _ := Advance();
      }
    }

    /** Scans one lexeme starting at the cursor. */
    method ScanToken()
      requires Valid() && start == current < |source|
      modifies this`current, this`line, this`tokens, this`reported
      ensures Valid() && start == old(start)
      ensures var st := Step(source, old(current), old(line));
              && current == st.next
              && line == st.line
              && tokens == old(tokens) + st.emitted
              && reported == old(reported) + st.reports
    {
      var c := Advance();
      // The ten one-character punctuation branches and the four `=`-suffixed
      // operator branches of the source, each written there as its own case.
      if SingleCharKind(c).Some? {
        AddToken(SingleCharKind(c).value, NoLiteral);
      } else if WithEqual(c).Some? {
        var m := Match('=');
        var (long, short) := WithEqual(c).value;
        AddToken(if m then long else short, NoLiteral);
      } else if c == '/' {
        var m := Match('/');
        if m {
          SkipComment();
        } else {
          AddToken(Slash, NoLiteral);
        }
      } else if c == ' ' || c == '\r' || c == '\t' {
      } else if c == '\n' {
        line := line + 1;
      } else if c == '\n' {
        // The string-literal branch: its guard repeats the one above, so it
        // is never taken and ScanString is never called from here.
        assert false;
      } else if IsDigit(c) {
        ScanNumber();
      } else if IsIdentStart(c) {
        ScanIdentifier();
      } else {
        reported := reported + [ErrorText(line, "Unexpected character.")];
      }
    }

    /** Scans the whole source, then appends the end-of-input token. */
    method ScanTokens() returns (result: seq<Token>)
      requires Valid()
      modifies this`start, this`current, this`line, this`tokens, this`reported
      ensures var sc := Scan(source, old(current), old(line));
              && tokens == old(tokens) + sc.tokens
              && reported == old(reported) + sc.reports
      ensures result == tokens
      ensures current == |source|
      ensures line == old(line) + Count(source[old(current)..], '\n')
      ensures old(current) < |source| ==> start == LastStart(source, old(current), old(line))
      ensures old(current) == |source| ==> start == old(start)
    {
      while !AtEnd()
        invariant Valid()
        invariant current == old(current) ==> start == old(start)
        invariant old(current) < |source| ==>
                    LastStart(source, old(current), old(line))
                    == if current < |source| then LastStart(source, current, line) else start
        invariant old(tokens) + Scan(source, old(current), old(line)).tokens
                  == tokens + Scan(source, current, line).tokens
        invariant old(reported) + Scan(source, old(current), old(line)).reports
                  == reported + Scan(source, current, line).reports
        decreases |source| - current
      {
        start := current;
        ghost var toks, reps := tokens, reported;
        ghost var st := Step(source, current, line);
        ghost var rest := Scan(source, st.next, st.line);
        ScanUnfold(source, current, line);
        ScanToken();
        AppendAssoc(toks, st.emitted, rest.tokens);
        AppendAssoc(reps, st.reports, rest.reports);
      }
      ghost var all := Scan(source, old(current), old(line)).tokens;
      assert Scan(source, current, line).tokens == [EofToken(line)];
      assert (old(tokens) + all)[|old(tokens) + all| - 1] == all[|all| - 1];
      tokens := tokens + [EofToken(line)];
      result := tokens;
    }
  }
}

=== FILE: scanner_properties.dfy ===
/**
 * What the scanner promises, stated over `Step` (one call of `scan_token`)
 * and `Scan` (the whole `scan_tokens` loop).
 */
module ScanningProperties {
  import opened Chars
  import opened Results
  import opened Tokens
  import opened Errors
  import opened Scanning
  import opened Sequences

  /** `( ) { } , . - + ; *` each give one token of their kind with a one-character lexeme. */
  lemma SingleCharacterToken(s: string, i: nat, line: nat)
    requires i < |s| && SingleCharKind(s[i]).Some?
    ensures Step(s, i, line) == Lexed(i + 1, line, [Token(SingleCharKind(s[i]).value, [s[i]], NoLiteral, line)], [])
  {
    assert s[i..i + 1] == [s[i]];
  }

  /**
   * `!`, `=`, `<` and `>` give the `=`-suffixed two-character kind exactly
   * when the next character is `=`, and the bare one-character kind otherwise.
   */
  lemma EqualSuffixedOperator(s: string, i: nat, line: nat)
    requires i < |s| && WithEqual(s[i]).Some?
    ensures var st := Step(s, i, line);
            var (long, short) := WithEqual(s[i]).value;
            && st.reports == [] && |st.emitted| == 1 && st.line == line
            && (st.emitted[0].kind == long <==> NextIs(s, i + 1, '='))
            && (NextIs(s, i + 1, '=') ==> st.next == i + 2 && st.emitted[0].lexeme == [s[i], '='])
            && (!NextIs(s, i + 1, '=') ==> st.next == i + 1 && st.emitted[0] == Token(short, [s[i]], NoLiteral, line))
  {
    assert s[i..i + 1] == [s[i]];
    if NextIs(s, i + 1, '=') {
      assert s[i..i + 2] == [s[i], '='];
    }
  }

  /**
   * `//` starts a comment that runs up to, not including, the next newline
   * (or to the end of input) and produces nothing.
   */
  lemma CommentSkipped(s: string, i: nat, line: nat)
    requires i + 1 < |s| && s[i] == '/' && s[i + 1] == '/'
    ensures var st := Step(s, i, line);
            && st.emitted == [] && st.reports == [] && st.line == line
            && (st.next == |s| || s[st.next] == '\n')
            && forall k :: i + 2 <= k < st.next ==> s[k] != '\n'
  {
  }

  /** A `/` not followed by `/` is a SLASH token. */
  lemma LoneSlash(s: string, i: nat, line: nat)
    requires i < |s| && s[i] == '/' && !NextIs(s, i + 1, '/')
    ensures Step(s, i, line) == Lexed(i + 1, line, [Token(Slash, "/", NoLiteral, line)], [])
  {
    assert s[i..i + 1] == "/";
  }

  /** Space, carriage return, tab and newline produce nothing; a newline counts a line. */
  lemma WhitespaceSkipped(s: string, i: nat, line: nat)
    requires i < |s| && s[i] in {' ', '\r', '\t', '\n'}
    ensures Step(s, i, line) == Lexed(i + 1, if s[i] == '\n' then line + 1 else line, [], [])
  {
  }

  /**
   * An identifier is the maximal run of identifier characters after a letter
   * or underscore; a reserved word gets its keyword kind, anything else is
   * IDENTIFIER.
   */
  lemma IdentifierToken(s: string, i: nat, line: nat)
    requires i < |s| && IsIdentStart(s[i])
    ensures var st := Step(s, i, line);
            var text := s[i..st.next];
            && st.reports == [] && st.line == line
            && (st.next == |s| || !IsIdentCont(s[st.next]))
            && (forall k :: i < k < st.next ==> IsIdentCont(s[k]))
            && st.emitted == [Token(if text in Keywords then Keywords[text] else Identifier, text, NoLiteral, line)]
  {
  }

  /**
   * A reserved word standing alone (not followed by an identifier
   * character) is scanned as one token of its keyword kind.
   */
  lemma ReservedWordToken(s: string, i: nat, w: string, line: nat)
    requires w in Keywords && i + |w| <= |s| && s[i..i + |w|] == w
    requires i + |w| == |s| || !IsIdentCont(s[i + |w|])
    ensures Step(s, i, line) == Lexed(i + |w|, line, [Token(Keywords[w], w, NoLiteral, line)], [])
  {
    KeywordsAreWords();
    assert s[i] == w[0];
    forall k | i < k < i + |w|
      ensures IsIdentCont(s[k])
    {
      assert s[k] == w[k - i];
    }
    IdentifierToken(s, i, line);
    IdentEndIs(s, i + 1, i + |w|);
  }

  /** The end of the identifier run is the first position that is no identifier character. */
  lemma {:induction false} IdentEndIs(s: string, i: nat, j: nat)
    requires i <= j <= |s|
    requires forall k :: i <= k < j ==> IsIdentCont(s[k])
    requires j == |s| || !IsIdentCont(s[j])
    ensures IdentEnd(s, i) == j
    decreases j - i
  {
    if i < j {
      IdentEndIs(s, i + 1, j);
    }
  }

  /**
   * A number is the maximal run of digits; its literal is the run's decimal
   * value. No fractional part is ever taken.
   */
  lemma NumberToken(s: string, i: nat, line: nat)
    requires i < |s| && IsDigit(s[i])
    ensures var st := Step(s, i, line);
            var text := s[i..st.next];
            && st.reports == [] && st.line == line
            && (st.next == |s| || !IsDigit(s[st.next]))
            && AllDigits(text)
            && st.emitted == [Token(Number, text, NumberLiteral(DecimalValue(text) as real), line)]
  {
  }

  /**
   * A number never takes a fractional part: in `12.5` the NUMBER token
   * stops before the dot, and the dot is scanned as a DOT token of its own.
   */
  lemma NoFractionalNumbers(s: string, i: nat, dot: nat, line: nat)
    requires i < dot < |s| - 1 && s[dot] == '.' && IsDigit(s[dot + 1])
    requires forall k :: i <= k < dot ==> IsDigit(s[k])
    ensures var st := Step(s, i, line);
            st.next == dot && st.emitted == [Token(Number, s[i..dot], NumberLiteral(DecimalValue(s[i..dot]) as real), line)]
    ensures Step(s, dot, line) == Lexed(dot + 1, line, [Token(Dot, ".", NoLiteral, line)], [])
  {
    NumberToken(s, i, line);
    SingleCharacterToken(s, dot, line);
  }

  /**
   * Any other character, `"` included, reports "Unexpected character." on
   * the current line, produces no token, and scanning goes on after it.
   */
  lemma UnexpectedCharacter(s: string, i: nat, line: nat)
    requires i < |s|
    requires SingleCharKind(s[i]).None? && WithEqual(s[i]).None?
    requires s[i] !in {'/', ' ', '\r', '\t', '\n'}
    requires !IsDigit(s[i]) && !IsIdentStart(s[i])
    ensures Step(s, i, line) == Lexed(i + 1, line, [], [ErrorText(line, "Unexpected character.")])
  {
  }

  /** A double quote never starts a string literal: it is an unexpected character. */
  lemma QuoteIsUnexpected(s: string, i: nat, line: nat)
    requires i < |s| && s[i] == '"'
    ensures Step(s, i, line) == Lexed(i + 1, line, [], ["[line " + NatText(line) + "] Error : " + "Unexpected character."])
  {
    UnexpectedCharacter(s, i, line);
    ErrorTextSpelled(line, "Unexpected character.");
  }

  lemma ErrorTextSpelled(line: nat, m: string)
    ensures ErrorText(line, m) == "[line " + NatText(line) + "] Error : " + m
  {
    assert ErrorText(line, m) == "[line " + (NatText(line) + ("] Error " + "" + ": " + m));
    assert "] Error " + "" + ": " + m == "] Error : " + m;
    AppendAssoc("[line ", NatText(line), "] Error : " + m);
  }

  /**
   * A token of one step is never a STRING token, and a NUMBER token carries
   * its number.
   */
  lemma StepLiteralsTyped(s: string, i: nat, line: nat)
    requires i < |s|
    ensures forall t :: t in Step(s, i, line).emitted ==>
              t.kind != String && (t.kind == Number ==> t.literal.NumberLiteral?)
  {
    var c := s[i];
    if SingleCharKind(c).Some? {
      assert SingleCharKind(c).value !in {String, Number};
    } else if WithEqual(c).Some? {
      assert WithEqual(c).value.0 !in {String, Number} && WithEqual(c).value.1 !in {String, Number};
    }
  }
}

=== FILE: sequences.dfy ===
/** Facts about sequences that several components lean on. */
module Sequences {

  /** Concatenation is associative: a helper for proofs that regroup appended output. */
  lemma AppendAssoc<T>(a: seq<T>, b: seq<T>, c: seq<T>)
    ensures a + (b + c) == (a + b) + c
  {
  }
}

=== FILE: spans.dfy ===
/**
 * The kinds of a range of tokens, which the parser's yield lemmas compare
 * trees against.
 */
module TokenSpans {
  import opened Tokens

  /** The kinds of the tokens from position `i` up to, not including, `j`. */
  function Span(ts: seq<Token>, i: nat, j: nat): (r: seq<TokenKind>)
    requires i <= j <= |ts|
    ensures |r| == j - i
  {
    seq(j - i, k requires 0 <= k < j - i => ts[i + k].kind)
  }

  /** A span that is not empty starts with the kind of its first token. */
  lemma SpanFirst(ts: seq<Token>, i: nat, j: nat)
    requires i < j <= |ts|
    ensures Span(ts, i, j) == [ts[i].kind] + Span(ts, i + 1, j)
  {
  }

  /** Spans that meet make up the span across both. */
  lemma SpanSplit(ts: seq<Token>, i: nat, j: nat, k: nat)
    requires i <= j <= k <= |ts|
    ensures Span(ts, i, k) == Span(ts, i, j) + Span(ts, j, k)
  {
  }

  /** The span from an opening parenthesis to a closing one is the span between them, wrapped. */
  lemma SpanWrap(ts: seq<Token>, pos: nat, next: nat)
    requires pos < next < |ts| && ts[pos].kind == LeftParen && ts[next].kind == RightParen
    ensures Span(ts, pos, next + 1) == [LeftParen] + Span(ts, pos + 1, next) + [RightParen]
  {
  }
}

=== FILE: syntax.dfy ===
/**
 * The abstract syntax the parser builds and the evaluator walks, and the
 * runtime values. Only the four expression variants the parser builds
 * (Literal, Grouping, Unary, Binary) and the two statement variants the
 * evaluator executes (ExpressionStmt, PrintStmt) are modelled.
 */
module Syntax {
  import opened Tokens

  /** A runtime value: Python's `float`, `str`, `bool` and `None`. */
  datatype Value = Num(x: real) | Str(s: string) | Bool(b: bool) | Nil

  datatype Expr =
    | Literal(value: Value)
    | Grouping(expression: Expr)
    | Unary(operator: Token, right: Expr)
    | Binary(left: Expr, operator: Token, right: Expr)

  datatype Stmt = ExpressionStmt(expression: Expr) | PrintStmt(expression: Expr)
}

=== FILE: tokens.dfy ===
/**
 * The token record produced by the scanner and consumed by the parser.
 * The kinds are those the scanner, the parser and the evaluator name
 * (the enumeration file itself, TokenType.py, is not part of this model).
 */
module Tokens {

  datatype TokenKind =
    // single-character punctuation
    | LeftParen | RightParen | LeftBrace | RightBrace
    | Comma | Dot | Minus | Plus | Semicolon | Slash | Star
    // one- or two-character operators
    | Bang | BangEqual | Equal | EqualEqual
    | Greater | GreaterEqual | Less | LessEqual
    // literals
    | Identifier | String | Number
    // reserved words
    | And | Class | Else | False | Fun | For | If | Nil | Or
    | Print | Return | Super | This | True | Var | While
    // end of input
    | Eof

  /** `LiteralType = str | float | None`. */
  datatype TokenLiteral = NoLiteral | StringLiteral(s: string) | NumberLiteral(x: real)

  /** A classified lexeme with its literal value and the line it was scanned on. */
  datatype Token = Token(kind: TokenKind, lexeme: string, literal: TokenLiteral, line: nat)
}
